=== FILE: README.md ===
# Credit scoring and loan eligibility, in Dafny

A model of the credit-approval system's decision engine. It covers:

- **`CreditScoreCalculator`.** It turns a customer's loans into four sub-scores in [0, 100]: past-loan performance, loan volume, current-year activity and credit utilisation. Their weighted sum is truncated to an integer and clamped to 0..100.
- **`LoanEligibilityEvaluator`.** It decides a loan request in order:
  1. It rejects a customer whose debt is over their limit.
  2. It looks up the first matching score tier, which can raise the requested rate to the tier's floor.
  3. It computes the amortised monthly installment (EMI).
  4. It rejects an installment strictly above the allowed share of income.
- **The helpers the engine depends on:**
  - the customer and loan derived properties and the score grade;
  - the approved-limit rounding and input validators of the registration and loan requests;
  - the default weight and tier tables;
  - the score histogram of the score-refresh command.

Modules, one per concern:

| file | module | contents |
|---|---|---|
| wrappers.dfy | `Wrappers` | `Option`, `Result` |
| rounding.dfy | `Rounding` | `int()` truncation, half-even `round()`, cents, clamps |
| aggregates.dfy | `Aggregates` | query-set `filter`, `count`, `Sum` over a sequence |
| amortisation.dfy | `Amortisation` | the EMI formula and the loan balance it pays off |
| models.dfy | `Models` | `Customer`, `Loan`, derived properties, `score_grade` |
| settings.dfy | `Settings` | weights, tiers, ratio, multiplier |
| scoring.dfy | `Scoring`, `ScoringProperties` | the four sub-scores and the overall score |
| eligibility.dfy | `Eligibility`, `EligibilityProperties` | the eligibility decision |
| serializers.dfy | `Serializers` | approved limit and request validators |
| scorestatistics.dfy | `ScoreStatistics` | `_get_score_statistics` |

How the model represents the program:

- **Amounts** are exact `real`s.
- **Dates** are day numbers. "Now" is a `Clock` parameter holding today, 1 January of the current year, and the customer's account age in years.
- **Database queries** over a customer's loans become filters, counts and sums over a `seq<Loan>`.
- **Rejections** are values. The evaluator's message strings become the `Reason` datatype. The validators return `Result`.

Points where the code reads otherwise than its names or comments suggest; the model follows the code:

- **Loan end date.** `Loan.end_date` is a plain `DateField`, so it is `NOT NULL` (credit_system/core/models.py:189-191). `Loan.endDate` is an `int`, and there are no open-ended loans.
- **The POOR tier (0..9).** Its entry in the tier table carries the comment `# Rejected` (credit_system/settings.py:212), but its rate is `None`, and `_get_approval_decision` reads a missing rate as "keep the requested rate". So scores 0..9 are approved at the tier step, and the affordability check still applies. `EligibilityProperties.DefaultRateCorrections` states this for score 5, and `EligibilityProperties.DefaultTiersNeverRejectScore` states that the "below minimum threshold" rejection cannot happen under the default tiers.
- **"Current-year" loans.** The filter is `start_date__gte=current_year_start` with no upper bound (credit_system/api/credit_scoring.py:222-223), so a loan dated in the future counts as a current-year loan too. `Scoring.CurrentYearActivity` does the same.
- **Serializer limit rounding.** The serializer writes the literal 36, which equals `APPROVED_LIMIT_MULTIPLIER`. The model uses the constant.

## Model

| member | source | states |
|---|---|---|
| Rounding.Trunc | credit_system/api/credit_scoring.py:70 | `int()` drops the fraction toward zero: the result is the floor for non-negative inputs and the ceiling for negative ones |
| Rounding.RoundHalfEven | credit_system/api/serializers.py:76 | Decimal `round()` gives a nearest integer, within one half, with ties going to the even neighbour |
| Rounding.RoundToCents | credit_system/api/credit_scoring.py:509 | `round(x, 2)` is a whole number of cents within half a cent of `x` |
| Rounding.ClampScore | credit_system/api/credit_scoring.py:150 | `min(100, max(0, x))` lies in [0, 100], is `x` inside that range, and is 0 below it and 100 above it |
| Rounding.ClampInt | credit_system/api/credit_scoring.py:70 | the integer clamp lies in 0..100 and is the identity inside it |
| Aggregates.Filter | credit_system/api/credit_scoring.py:99-102 | a query-set filter keeps only matching records and every matching record occurs in it; it is empty iff no record matches |
| Aggregates.FilterMultiplicity | credit_system/api/credit_scoring.py:99-102 | each matching record is kept as many times as it occurs, and every other record is dropped: duplicate rows are not merged |
| Aggregates.CountIf | credit_system/api/credit_scoring.py:117-120 | `filter(...).count()` is at most the number of records, and it is 0 iff none matches |
| Aggregates.CountIfIndices | credit_system/api/credit_scoring.py:117-120 | the count equals the number of positions whose record matches |
| Aggregates.FilterFullLength | credit_system/api/credit_scoring.py:117-120 | a filter is as long as its input, so `count()` equals the number of records, exactly when every record matches |
| Aggregates.FilterAll | credit_system/api/credit_scoring.py:99-102 | a filter by a predicate every record satisfies returns the whole list unchanged |
| Aggregates.FilterAppend | credit_system/core/models.py:102-104 | filtering the concatenation of two record lists is concatenating their filters |
| Aggregates.SumAppend | credit_system/core/models.py:104-106 | `Sum` over two record lists is the sum of the two sums |
| Amortisation.CalculateEmi | credit_system/api/credit_scoring.py:484-509 | at rate 0 the EMI times the tenure is the principal (unrounded `P/n`); otherwise the EMI is a whole number of cents within half a cent of the exact annuity |
| Amortisation.NonNegativeRateDefined | credit_system/api/credit_scoring.py:499-506 | a non-negative rate and a tenure of at least one month leave neither divisor of the formula at zero |
| Amortisation.BalanceClosedForm | credit_system/api/credit_scoring.py:506 | after `k` payments of `e`, `r·B_k = P·r·q^k − e·(q^k − 1)` with `q = 1 + r` |
| Amortisation.ExactEmiAmortises | credit_system/api/credit_scoring.py:499-506 | the exact installment repays the loan: the balance after `n` payments is 0 |
| Amortisation.ExactEmiAtLeastStraightLine | credit_system/api/credit_scoring.py:502-506 | with interest the installment is never below the interest-free `P/n` |
| Amortisation.CalculateEmiPositive | credit_system/api/tests.py:449 | the installment is positive once `P/n` exceeds half a cent |
| Amortisation.InterestFreeExample | credit_system/api/credit_scoring.py:502-503 | 120000 at 0% over 12 months is 10000 a month |
| Amortisation.TwelvePercentExample | credit_system/api/tests.py:460-464 | 100000 at 12% over 12 months gives an EMI strictly between 8800 and 8900 |
| Models.CreditUtilization | credit_system/core/models.py:92-97 | with a zero limit the utilisation is 0; otherwise utilisation × limit = debt × 100; within the limit it is a percentage in [0, 100] |
| Models.CreditUtilizationExample | credit_system/api/tests.py:509-511 | 360000 owed on 1800000 is 20% |
| Models.ApprovedLoans | credit_system/core/models.py:102-104 | only approved loans are kept, and each approved loan is kept as many times as it occurs |
| Models.UpdateCurrentDebt | credit_system/core/models.py:99-110 | only the debt changes; it is 0 without approved loans and non-negative over non-negative amounts |
| Models.ApprovedAmountBounds | credit_system/core/models.py:102-106 | the approved total falls back to 0 without approved loans and is non-negative over non-negative amounts |
| Models.UpdateCurrentDebtInsert | credit_system/core/models.py:99-110 | adding a loan anywhere in the list raises the debt by its amount if it is approved and leaves the debt unchanged otherwise |
| Models.RepaymentsLeft | credit_system/core/models.py:216-219 | the count is never negative; it is 0 iff the paid count reaches the tenure, and otherwise paid + left = tenure |
| Models.IsActive | credit_system/core/models.py:221-229 | a loan is active iff it is approved, today lies within its dates, and fewer installments than the tenure are paid |
| Models.PaymentCompletionRate | credit_system/core/models.py:231-236 | 0 for tenure 0; otherwise the rate times the tenure is 100 × the installments paid on time; for a positive tenure it is non-negative, reaches 100 iff all installments are paid, equals 100 iff exactly the tenure is paid, and reaches 80 iff at least 80% are paid |
| Models.CalculateMonthlyInstallment | credit_system/core/models.py:238-261 | the loan model's copy of the formula gives the same value as the evaluator's `_calculate_emi` |
| Models.SaveLoan | credit_system/core/models.py:268-270 | an unset installment is filled from the formula; a set one is kept; no other field changes |
| Models.SaveLoanIdempotent | credit_system/core/models.py:268-270 | saving a second time changes nothing |
| Models.ScoreGrade | credit_system/core/models.py:338-348 | each grade holds exactly on its range: ≥50 Excellent, 30..49 Good, 10..29 Fair, below 10 Poor |
| Models.LoanPropertiesExample | credit_system/api/tests.py:536-543 | 5 of 12 paid leaves 7 repayments, a 500/12% completion rate, and the loan is active on its start day |
| Settings.WeightedSumBounds | credit_system/api/credit_scoring.py:62-67 | convex weights keep a weighted sum of [0, 100] scores in [0, 100] |
| Settings.DefaultWeightsConvex | credit_system/settings.py:200-205 | 0.40/0.25/0.20/0.15 are non-negative and sum to 1 |
| Settings.DefaultTiersPartition | credit_system/settings.py:208-213 | the default tier ranges are pairwise disjoint and cover every score 0..100 |
| Scoring.AveragePaymentPercent | credit_system/api/credit_scoring.py:108-112 | the average on-time percentage of a non-empty loan set is non-negative |
| Scoring.PastLoansPerformance | credit_system/api/credit_scoring.py:80-150 | the past-loans score lies in [0, 100] and is 50 for a customer without loans |
| Scoring.CompletedLoansFormula | credit_system/api/credit_scoring.py:116-148 | no good loan scores 0; all loans excellent and recent scores the maximum 84 |
| Scoring.LoanVolumeScore | credit_system/api/credit_scoring.py:152-205 | the volume score lies in [0, 100] and is 0 without approved loans |
| Scoring.CurrentYearActivity | credit_system/api/credit_scoring.py:207-257 | the current-year score lies in [0, 100] and is 30 when no loan starts this year |
| Scoring.UtilizationLadder | credit_system/api/credit_scoring.py:278-289 | the debt-to-limit ladder awards between 0 and 100 points |
| Scoring.IncomeLadder | credit_system/api/credit_scoring.py:309-320 | the debt-to-income ladder awards between 0 and 100 points |
| Scoring.MonthlyDebtPayment | credit_system/api/credit_scoring.py:291-304 | the monthly debt is 0 when no loan is running today and non-negative over non-negative installments |
| Scoring.CreditUtilizationScore | credit_system/api/credit_scoring.py:259-338 | the utilisation score lies in [0, 100] and is 0 for a limit of 0 or less |
| Scoring.CalculateCreditScore | credit_system/api/credit_scoring.py:45-78 | the four reported fields are this customer's past-loans, loan-volume, current-year and utilization sub-scores, each in [0, 100]; the overall score is their truncated weighted sum clamped to 0..100 |
| ScoringProperties.NoLoans | credit_system/api/credit_scoring.py:95-226 | without loans: past loans 50, volume 0, current year 30, and a utilisation score independent of the date and at least 30 for a positive limit and income |
| ScoringProperties.CompletedLoansFormulaBounds | credit_system/api/credit_scoring.py:116-148 | the completed-loans formula lies in [0, 84] |
| ScoringProperties.CompletedLoansCounts | credit_system/api/credit_scoring.py:116-141 | with no good loan the good, excellent and recent-good counts are 0; with all loans excellent and recent they are all the whole count, and the recent loans are all the completed ones |
| ScoringProperties.PastLoansWithCompletedLoans | credit_system/api/credit_scoring.py:99-150 | once any loan is completed, the score is the completed-loans formula unclamped, and at most 84 |
| ScoringProperties.PastLoansWithoutCompletedLoans | credit_system/api/credit_scoring.py:104-114 | with loans but none completed, the score is the average completion rate of the approved loans, or 50 if none is approved |
| ScoringProperties.OngoingPercentBelowHundred | credit_system/api/credit_scoring.py:99-112 | a loan that is not completed has a completion rate in [0, 100) |
| ScoringProperties.LoanVolumeScoreIsBlend | credit_system/api/credit_scoring.py:160-205 | with approved loans of non-negative amounts, the amount and frequency factors lie in [0, 100] and the score is exactly 0.5 count + 0.3 amount + 0.2 frequency factor: the clamp never changes it |
| ScoringProperties.CurrentYearActivityIsBlend | credit_system/api/credit_scoring.py:222-257 | with some loan this year, the score is exactly 0.4 count factor + 0.3 approval rate + 0.3 capped average payment percentage: the clamp never changes it |
| ScoringProperties.ExcellenceNeedsExactTenure | credit_system/api/credit_scoring.py:126-130 | one completed loan paid exactly to its tenure scores 84; one over-paid by an installment scores 80 |
| ScoringProperties.UtilizationLadderMonotone | credit_system/api/credit_scoring.py:278-289 | a higher debt-to-limit ratio never earns more points |
| ScoringProperties.IncomeLadderMonotone | credit_system/api/credit_scoring.py:309-320 | a higher debt-to-income ratio never earns more points |
| ScoringProperties.CreditUtilizationMonotoneInDebt | credit_system/api/credit_scoring.py:271-338 | more debt, all else equal, never raises the utilisation score |
| ScoringProperties.ConvexWeightsNeedNoClamp | credit_system/api/credit_scoring.py:62-70 | with convex weights and sub-scores in 0..100, clamping the truncated weighted sum changes nothing: the result is the sum rounded down |
| ScoringProperties.NewCustomerDefaultScore | credit_system/api/credit_scoring.py:62-70 | under the default weights a customer without loans scores 26..41 |
| ScoringProperties.ActiveLoanRunningNotCompleted | credit_system/core/models.py:221-229 | an active loan is running today and is not completed |
| ScoringProperties.RunningLoanNeedNotBeActive | credit_system/api/credit_scoring.py:293-304 | a fully repaid loan within its dates is not active, yet its installment still counts as monthly debt |
| ScoringProperties.MonthlyDebtPaymentSnoc | credit_system/api/credit_scoring.py:291-304 | one more loan adds its installment to the monthly debt exactly when it is approved and today lies within its start and end dates |
| ScoringProperties.MonthlyDebtPaymentIsSumOfRunning | credit_system/api/credit_scoring.py:291-304 | the monthly debt equals the sum over all loans of each running loan's installment, 0 for every other loan |
| ScoringProperties.GoodAndExcellentAsCompletionRate | credit_system/api/credit_scoring.py:118-128 | "good" is a completion rate of at least 80%; "excellent" is exactly 100% |
| Eligibility.FindTier | credit_system/api/credit_scoring.py:459-460 | the result is the first tier, in configured order, containing the score; there is none iff no tier contains it |
| Eligibility.FindTierIs | credit_system/api/credit_scoring.py:459-460 | a tier containing the score with no earlier tier containing it is the one found |
| Eligibility.GetApprovalDecision | credit_system/api/credit_scoring.py:448-482 | rejects iff no tier matches; otherwise keeps the requested rate for a tier without a rate and takes the larger of the requested rate and the tier floor, so the rate never drops |
| Eligibility.CheckEmiToSalaryRatio | credit_system/api/credit_scoring.py:511-533 | passes iff the installment is at most income × ratio; equality passes |
| Eligibility.DecideWithinLimit | credit_system/api/credit_scoring.py:413-446 | a tier rejection keeps the requested rate and a 0 installment; otherwise the installment is the EMI at the corrected rate; approval holds iff that EMI is affordable; a rejection keeps the rate and the EMI |
| Eligibility.EvaluateEligibility | credit_system/api/credit_scoring.py:386-446 | the over-limit rejection happens iff debt exceeds the limit, with score 0, the requested rate and installment 0; within the limit steps 3-6 decide with a score in 0..100; the rate never drops; approval iff the reason is approval, and then the installment is the EMI and affordable |
| EligibilityProperties.EvaluateEligibilityReportsScore | credit_system/api/credit_scoring.py:393-396 | within the limit the decision reports the customer's computed credit score |
| EligibilityProperties.OverLimitIgnoresTerms | credit_system/api/credit_scoring.py:402-409 | over the limit, the decision does not depend on the amount or tenure and is never an approval |
| EligibilityProperties.DebtAtLimitNotRejectedForDebt | credit_system/api/credit_scoring.py:402 | a debt equal to the limit does not trigger the over-limit rejection |
| EligibilityProperties.DefaultTierMatchesGrade | credit_system/settings.py:208-213 | every score 0..100 finds a default tier, and the tier's name is the score's grade |
| EligibilityProperties.DefaultTiersNeverRejectScore | credit_system/api/credit_scoring.py:413-421 | under the default tiers no score in 0..100 gets the "below minimum threshold" rejection |
| EligibilityProperties.DefaultRateCorrections | credit_system/api/credit_scoring.py:459-475 | score 55 keeps the rate; 35 gets max(rate, 12); 15 gets max(rate, 16); 5 falls in POOR and keeps the rate |
| EligibilityProperties.AffordabilityBoundary | credit_system/api/credit_scoring.py:521-524 | at income 10000 and ratio 0.50, 5000.00 passes and 5000.01 fails |
| Serializers.ApprovedLimit | credit_system/api/serializers.py:71-78 | the limit is a whole number of lakhs within half a lakh of 36 × income, and a tie at an exact half lakh goes to the even lakh: the number of lakhs is the half-even rounding of 36 × income / 100000 |
| Serializers.ApprovedLimitMonotone | credit_system/api/serializers.py:74-76 | a higher income never gets a lower limit |
| Serializers.ApprovedLimitExamples | credit_system/api/serializers.py:76 | incomes of 50000, 12500 and 37500 give 18, 4 and 14 lakh, because ties go to the even lakh |
| Serializers.ValidateAge | credit_system/api/serializers.py:42-46 | an age passes iff it is at least 18; a failure carries the validator's error text |
| Serializers.NatToStringRoundTrip | credit_system/api/serializers.py:50 | reading back the decimal string of a number gives the number |
| Serializers.IntToString | credit_system/api/serializers.py:50 | `str()` of an integer is the digits of its magnitude, with a leading minus sign for a negative number |
| Serializers.ValidatePhoneNumber | credit_system/api/serializers.py:48-51 | a number passes iff its decimal string, sign included, has 10 characters; a failure carries the validator's error text |
| Serializers.PhoneNumberRange | credit_system/api/serializers.py:50-51 | the accepted numbers are exactly 1000000000..9999999999 and, because the sign counts, -999999999..-100000000 |
| Serializers.ValidateMonthlyIncome | credit_system/api/serializers.py:59-63 | an income passes iff it is positive; a failure carries the validator's error text |
| Serializers.ValidateLoanAmount | credit_system/api/serializers.py:182-186 | an amount passes iff it is positive; a failure carries the validator's error text |
| Serializers.ValidateInterestRate | credit_system/api/serializers.py:188-192 | a rate passes iff it lies in (0, 50]; a failure carries the validator's error text |
| Serializers.ValidateTenure | credit_system/api/serializers.py:194-198 | a tenure passes iff it lies in 1..120; a failure carries the validator's error text |
| Serializers.EligibilityRequestSuffices | credit_system/api/serializers.py:108-129 | a request within the eligibility bounds passes the loan-creation validators, has a defined EMI formula, and gets a positive installment |
| ScoreStatistics.Average | credit_system/api/management/commands/update_credit_scores.py:209 | the average of scores in 0..100 lies in [0, 100] |
| ScoreStatistics.GetScoreStatistics | credit_system/api/management/commands/update_credit_scores.py:189-223 | no scores give all zeros; otherwise total is the number of scores, each bucket is its filter's count, the buckets sum to total, and the average is the mean rounded to cents |
| ScoreStatistics.BucketsPartition | credit_system/api/management/commands/update_credit_scores.py:211-214 | the four bucket counts add up to the number of scores |
| ScoreStatistics.BucketsAreGrades | credit_system/api/management/commands/update_credit_scores.py:211-214 | each bucket counts exactly the scores of one `score_grade` |
| ScoreStatistics.AverageWithinScoreRange | credit_system/api/management/commands/update_credit_scores.py:209-219 | the reported average of stored scores lies in [0, 100] |

## Left out

- `save_credit_score` and every other persistence step are left out. These are the `save()`/`update_or_create` side effects and the trailing `update_current_debt` call in `Loan.save`. Queries are modelled over a loan sequence passed in.
- The clock is not modelled. `timezone.now()` becomes the `Clock` parameter. The account age, which the code derives from `created_at` as days / 365.25, is taken as given.
- `Loan.save`'s end-date computation is left out. It uses dateutil's `relativedelta`, a foreign library. The end date is an input.
- Binary floating point is not modelled. Amounts and ratios are exact reals. `round(x, 2)` on a float, and the `Decimal(str(...))` around it in the non-zero-rate branch, are modelled as exact half-even rounding to cents, so float tie behaviour is not reproduced. The zero-rate branch is not rounded at all (next line).
- Amortisation.CalculateEmi: the rate-0 branch returns the exact `P/n`. The code returns `Decimal(str(P/n))`, the shortest float representation of that quotient.
- Amortisation.CalculateEmi: requires `EmiDefined`: a tenure of at least 1 and, for a non-zero rate, `(1+r)^n` other than 1. The code has no such guard: at tenure 0 it raises `ZeroDivisionError` (credit_system/api/credit_scoring.py:504 for a zero rate, 507 otherwise). The exception is not modelled. A negative tenure is also excluded, although the code computes a value for it without error. No caller passes one: the eligibility request declares tenure 1..120 (credit_system/api/serializers.py:125-128, `Serializers.ValidateTenure`), and the model field's validators demand 1..120 (credit_system/core/models.py:156-159).
- Models.CalculateMonthlyInstallment: requires `EmiDefined` for the same reason; the model's own copy of the formula raises `ZeroDivisionError` at tenure 0 (credit_system/core/models.py:256 and 259).
- Models.SaveLoan: requires `EmiDefined` when the installment is unset, so a `save()` that would raise in `calculate_monthly_installment` is not modelled.
- Models.Loan: `emisPaidOnTime` is a `nat`. The source field is an `IntegerField` whose `MinValueValidator(0)` runs only in form and serializer validation, never in `save()`, so a negative count can be stored. The model excludes it. Scoring.AveragePaymentPercent's non-negative average and the non-negative performance term of `Scoring.CurrentYearActivity` rest on this restriction.
- Database lookups inside validators are left out: phone-number uniqueness and customer existence.
- DRF field machinery is left out. This covers `max_digits`/`decimal_places`, the model-field validators (such as age ≤ 100) and the response key renaming. The model states the serializer's own checks and the eligibility request's declared bounds.
- HTTP views, routing, admin, Celery tasks, data import and CLI output are left out. None of them makes a scoring decision.
- Concurrency is left out. The engine is sequential.
- Scoring.ValidLoans: the score functions require every loan's tenure to be at least 1. This is because the scoring queries divide by the tenure in SQL, and the model field's validator requires at least 1. A zero tenure is not modelled there; `Models.PaymentCompletionRate` still handles tenure 0 the way the property does.
- Eligibility.EvaluateEligibility: requires a non-negative requested rate and a tenure of at least 1. These keep the EMI formula defined, and the request serializer guarantees them (`Serializers.EligibilityRequestSuffices`). A negative rate whose `(1+r)^n` equals 1 would divide by zero in the code.
- Eligibility.Decision: the rejection and approval messages are the `Reason` values, not their text.
- ScoreStatistics.GetScoreStatistics: the average is taken over exact integers, then rounded half-even to cents. The database's floating-point `Avg` is not reproduced.

=== FILE: aggregates.dfy ===
/** The query-set operations the engine uses, over an in-memory sequence:
    `filter(...)` keeps the matching records in order, `count()` is the
    length of a filtered sequence, and `aggregate(Sum(...))` adds a real
    field over it. */
module Aggregates {

  /** `queryset.filter(p)`: the elements satisfying `p`, in their original order. */
  function Filter<T>(s: seq<T>, p: T -> bool): (r: seq<T>)
    ensures |r| <= |s|
    ensures forall i :: 0 <= i < |r| ==> r[i] in s && p(r[i])
    ensures forall i :: 0 <= i < |s| && p(s[i]) ==> s[i] in r
    ensures |r| == 0 <==> forall i :: 0 <= i < |s| ==> !p(s[i])
  {
    if |s| == 0 then []
    else if p(s[0]) then [s[0]] + Filter(s[1..], p)
    else Filter(s[1..], p)
  }

  /** The filter keeps every matching record as often as it occurs and drops
      every other: duplicates are not merged. */
  lemma {:induction false} FilterMultiplicity<T>(s: seq<T>, p: T -> bool)
    ensures forall x :: multiset(Filter(s, p))[x] == if p(x) then multiset(s)[x] else 0
  {
    if |s| > 0 {
      FilterMultiplicity(s[1..], p);
      assert s == [s[0]] + s[1..];
    }
  }

  /** `filter(p).count()`. */
  function CountIf<T>(s: seq<T>, p: T -> bool): (n: nat)
    ensures n <= |s|
    ensures n == 0 <==> forall i :: 0 <= i < |s| ==> !p(s[i])
  {
    |Filter(s, p)|
  }

  /** The positions of the records that satisfy `p`. */
  function MatchingIndices<T>(s: seq<T>, p: T -> bool): set<int>
  {
    set i | 0 <= i < |s| && p(s[i])
  }

  /** Filtering by a predicate every record satisfies keeps the whole list. */
  lemma {:induction false} FilterAll<T>(s: seq<T>, p: T -> bool)
    ensures (forall i :: 0 <= i < |s| ==> p(s[i])) ==> Filter(s, p) == s
  {
    if |s| > 0 {
      FilterAll(s[1..], p);
      assert forall i :: 1 <= i < |s| ==> s[i] == s[1..][i - 1];
    }
  }

  /** A filter is as long as its input exactly when every record matches. */
  lemma {:induction false} FilterFullLength<T>(s: seq<T>, p: T -> bool)
    ensures |Filter(s, p)| == |s| <==> forall i :: 0 <= i < |s| ==> p(s[i])
  {
    if |s| > 0 {
      FilterFullLength(s[1..], p);
      assert forall i :: 1 <= i < |s| ==> s[i] == s[1..][i - 1];
    }
  }

  /** The count is the number of positions whose record matches. */
  lemma {:induction false} CountIfIndices<T>(s: seq<T>, p: T -> bool)
    ensures CountIf(s, p) == |MatchingIndices(s, p)|
  {
    if |s| > 0 {
      var k := |s| - 1;
      CountIfIndices(s[..k], p);
      FilterSnocLength(s, p);
      MatchingIndicesSnoc(s, p);
      assert k !in MatchingIndices(s[..k], p);
    }
  }

  /** Filtering one more record adds one to the length exactly when it matches. */
  lemma FilterSnocLength<T>(s: seq<T>, p: T -> bool)
    requires |s| > 0
    ensures |Filter(s, p)| == |Filter(s[..|s| - 1], p)| + (if p(s[|s| - 1]) then 1 else 0)
  {
    var k := |s| - 1;
    assert s == s[..k] + [s[k]];
    FilterAppend(s[..k], [s[k]], p);
    assert Filter([s[k]][1..], p) == [];
  }

  /** The matching positions of one more record: those before it, and its own if it matches. */
  lemma MatchingIndicesSnoc<T>(s: seq<T>, p: T -> bool)
    requires |s| > 0
    ensures MatchingIndices(s, p)
         == MatchingIndices(s[..|s| - 1], p) + (if p(s[|s| - 1]) then {|s| - 1} else {})
  {
    var k := |s| - 1;
    var m := MatchingIndices(s[..k], p);
    var extra: set<int> := if p(s[k]) then {k} else {};
    forall i
      ensures i in MatchingIndices(s, p) <==> i in m + extra
    {
      if 0 <= i < k {
        assert s[i] == s[..k][i];
      }
    }
  }

  /** `aggregate(Sum(f))`; an empty sum is 0, as the `or 0` fallbacks make it. */
  function Sum<T>(s: seq<T>, f: T -> real): real
  {
    if |s| == 0 then 0.0 else f(s[0]) + Sum(s[1..], f)
  }

  lemma {:induction false} FilterAppend<T>(a: seq<T>, b: seq<T>, p: T -> bool)
    ensures Filter(a + b, p) == Filter(a, p) + Filter(b, p)
  {
    if |a| == 0 {
      assert a + b == b;
    } else {
      assert (a + b)[1..] == a[1..] + b;
      FilterAppend(a[1..], b, p);
    }
  }

  lemma {:induction false} SumAppend<T>(a: seq<T>, b: seq<T>, f: T -> real)
    ensures Sum(a + b, f) == Sum(a, f) + Sum(b, f)
  {
    if |a| == 0 {
      assert a + b == b;
    } else {
      assert (a + b)[1..] == a[1..] + b;
      SumAppend(a[1..], b, f);
    }
  }

  /** A sum of `n` terms each at least `lo` is at least `n lo`. */
  lemma {:induction false} SumAtLeast<T>(s: seq<T>, f: T -> real, lo: real)
    requires forall i :: 0 <= i < |s| ==> lo <= f(s[i])
    ensures |s| as real * lo <= Sum(s, f)
  {
    if |s| > 0 {
      var rest := s[1..];
      assert forall i :: 0 <= i < |rest| ==> rest[i] == s[i + 1];
      SumAtLeast(rest, f, lo);
      assert |s| as real * lo == |rest| as real * lo + lo;
      assert lo <= f(s[0]);
    }
  }

  /** A sum of `n` terms each at most `hi` is at most `n hi`. */
  lemma {:induction false} SumAtMost<T>(s: seq<T>, f: T -> real, hi: real)
    requires forall i :: 0 <= i < |s| ==> f(s[i]) <= hi
    ensures Sum(s, f) <= |s| as real * hi
  {
    if |s| > 0 {
      var rest := s[1..];
      assert forall i :: 0 <= i < |rest| ==> rest[i] == s[i + 1];
      SumAtMost(rest, f, hi);
      assert |s| as real * hi == |rest| as real * hi + hi;
      assert f(s[0]) <= hi;
    }
  }

  /** Every element satisfies `p` or does not, exactly once: the two filters partition the sequence. */
  lemma {:induction false} FilterPartition<T>(s: seq<T>, p: T -> bool, q: T -> bool)
    requires forall x :: x in s ==> (q(x) <==> !p(x))
    ensures |Filter(s, p)| + |Filter(s, q)| == |s|
  {
    if |s| > 0 {
      assert s[0] in s;
      assert forall x :: x in s[1..] ==> x in s;
      FilterPartition(s[1..], p, q);
    }
  }

  /** Filtering by two predicates that agree on the sequence gives the same result. */
  lemma {:induction false} FilterCongruent<T>(s: seq<T>, p: T -> bool, q: T -> bool)
    requires forall x :: x in s ==> (p(x) <==> q(x))
    ensures Filter(s, p) == Filter(s, q)
  {
    if |s| > 0 {
      assert s[0] in s;
      assert forall x :: x in s[1..] ==> x in s;
      FilterCongruent(s[1..], p, q);
    }
  }

  /** The average of terms within [0, hi] is within [0, hi]. */
  lemma AverageBounds<T>(s: seq<T>, f: T -> real, hi: real)
    requires |s| > 0
    ensures (forall i :: 0 <= i < |s| ==> 0.0 <= f(s[i]) <= hi) ==> 0.0 <= Sum(s, f) / |s| as real <= hi
  {
    if forall i :: 0 <= i < |s| ==> 0.0 <= f(s[i]) <= hi {
      SumAtLeast(s, f, 0.0);
      SumAtMost(s, f, hi);
      QuotientBounds(Sum(s, f), |s| as real, hi);
    }
  }

  /** A total in [0, n hi] divided by a positive n lies in [0, hi]. */
  lemma QuotientBounds(total: real, n: real, hi: real)
    requires n > 0.0 && 0.0 <= total <= n * hi
    ensures 0.0 <= total / n <= hi
  {
    assert total / n <= (n * hi) / n;
  }

  /** A sum of non-negative terms is non-negative. */
  lemma SumNonNegative<T>(s: seq<T>, f: T -> real)
    ensures (forall i :: 0 <= i < |s| ==> 0.0 <= f(s[i])) ==> 0.0 <= Sum(s, f)
  {
    if forall i :: 0 <= i < |s| ==> 0.0 <= f(s[i]) {
      SumAtLeast(s, f, 0.0);
    }
  }

  /** A share `a / b` of a count within its total is in [0, 1]. */
  lemma ShareBounds(a: nat, b: nat)
    requires 0 < b && a <= b
    ensures 0.0 <= a as real / b as real <= 1.0
  {
  }
}

=== FILE: amortisation.dfy ===
/** The equated monthly installment (EMI) of a loan. The evaluator's
    `_calculate_emi` and the loan model's `calculate_monthly_installment`
    carry the same formula; both are this module. */
module Amortisation {
  import opened Rounding

  /** `b ** n` for a whole exponent. */
  function Pow(b: real, n: nat): real
  {
    if n == 0 then 1.0 else b * Pow(b, n - 1)
  }

  /** The monthly rate as a fraction: `annual_rate / 12 / 100`. */
  function MonthlyRate(annualRate: real): real
  {
    annualRate / 12.0 / 100.0
  }

  /** The formula divides by the tenure at a zero rate and by `(1+r)^n - 1`
      otherwise; it is defined exactly when neither divisor is zero. */
  predicate EmiDefined(annualRate: real, months: int)
  {
    && months >= 1
    && (MonthlyRate(annualRate) == 0.0 || Pow(1.0 + MonthlyRate(annualRate), months) != 1.0)
  }

  /** The exact installment before rounding: `P / n` at a zero rate,
      `P r (1+r)^n / ((1+r)^n - 1)` otherwise. */
  function ExactEmi(principal: real, annualRate: real, months: int): real
    requires EmiDefined(annualRate, months)
  {
    var r := MonthlyRate(annualRate);
    if r == 0.0 then principal / months as real
    else
      var q := Pow(1.0 + r, months);
      principal * r * q / (q - 1.0)
  }

  /** `_calculate_emi`: the exact installment, rounded to cents unless the
      rate is zero (then `P / n` is returned unrounded). */
  function CalculateEmi(principal: real, annualRate: real, months: int): (emi: real)
    requires EmiDefined(annualRate, months)
    ensures MonthlyRate(annualRate) == 0.0 ==> emi * months as real == principal
    ensures MonthlyRate(annualRate) != 0.0 ==> IsWholeCents(emi)
    ensures -0.005 <= emi - ExactEmi(principal, annualRate, months) <= 0.005
  {
    if MonthlyRate(annualRate) == 0.0 then principal / months as real
    else RoundToCents(ExactEmi(principal, annualRate, months))
  }

  /** The outstanding balance after `k` monthly payments of `e`: interest at
      rate `r` accrues on the balance, then the payment is deducted. */
  function Balance(principal: real, r: real, e: real, k: nat): real
  {
    if k == 0 then principal else Balance(principal, r, e, k - 1) * (1.0 + r) - e
  }

  lemma {:induction false} PowAtLeastOne(b: real, n: nat)
    requires b >= 1.0
    ensures Pow(b, n) >= 1.0
    ensures n >= 1 && b > 1.0 ==> Pow(b, n) > 1.0
  {
    if n > 0 {
      PowAtLeastOne(b, n - 1);
      var p := Pow(b, n - 1);
      assert b * p >= p;
    }
  }

  /** A non-negative annual rate and a tenure of at least one month make the formula defined. */
  lemma NonNegativeRateDefined(annualRate: real, months: int)
    requires annualRate >= 0.0 && months >= 1
    ensures EmiDefined(annualRate, months)
  {
    PowAtLeastOne(1.0 + MonthlyRate(annualRate), months);
  }

  /** One month of the closed form: the identity carries from `k - 1` to `k`. */
  lemma ClosedFormStep(principal: real, r: real, e: real, b: real, q: real, b': real, q': real)
    requires r * b == principal * r * q - e * (q - 1.0)
    requires b' == b * (1.0 + r) - e && q' == (1.0 + r) * q
    ensures r * b' == principal * r * q' - e * (q' - 1.0)
  {
    assert r * b' == (1.0 + r) * (r * b) - r * e;
    assert (1.0 + r) * (principal * r * q) == principal * r * q';
    assert (1.0 + r) * (e * (q - 1.0)) + r * e == e * (q' - 1.0);
  }

  /** Closed form of the balance: `r B_k = P r q^k - e (q^k - 1)` with `q = 1 + r`. */
  lemma {:induction false} BalanceClosedForm(principal: real, r: real, e: real, k: nat)
    ensures r * Balance(principal, r, e, k)
         == principal * r * Pow(1.0 + r, k) - e * (Pow(1.0 + r, k) - 1.0)
  {
    if k > 0 {
      BalanceClosedForm(principal, r, e, k - 1);
      BalanceClosedFormStep(principal, r, e, k);
    }
  }

  /** The closed form for `k - 1` months gives it for `k` months. */
  lemma BalanceClosedFormStep(principal: real, r: real, e: real, k: nat)
    requires k > 0
    requires r * Balance(principal, r, e, k - 1)
          == principal * r * Pow(1.0 + r, k - 1) - e * (Pow(1.0 + r, k - 1) - 1.0)
    ensures r * Balance(principal, r, e, k)
         == principal * r * Pow(1.0 + r, k) - e * (Pow(1.0 + r, k) - 1.0)
  {
    ClosedFormStep(principal, r, e, Balance(principal, r, e, k - 1), Pow(1.0 + r, k - 1),
                   Balance(principal, r, e, k), Pow(1.0 + r, k));
  }

  /** With no interest, `k` payments of `e` reduce the principal by `k e`. */
  lemma {:induction false} BalanceWithoutInterest(principal: real, e: real, k: nat)
    ensures Balance(principal, 0.0, e, k) == principal - k as real * e
  {
    if k > 0 {
      BalanceWithoutInterest(principal, e, k - 1);
    }
  }

  /** The exact installment pays the loan off: after `n` payments the balance is zero. */
  lemma ExactEmiAmortises(principal: real, annualRate: real, months: int)
    requires EmiDefined(annualRate, months)
    ensures Balance(principal, MonthlyRate(annualRate), ExactEmi(principal, annualRate, months), months) == 0.0
  {
    var r := MonthlyRate(annualRate);
    var e := ExactEmi(principal, annualRate, months);
    if r == 0.0 {
      BalanceWithoutInterest(principal, e, months);
      assert months as real * (principal / months as real) == principal;
    } else {
      var q := Pow(1.0 + r, months);
      BalanceClosedForm(principal, r, e, months);
      assert e * (q - 1.0) == principal * r * q;
      assert r * Balance(principal, r, e, months) == 0.0;
    }
  }

  /** `(1+r)^k - 1 <= k r (1+r)^k` for a non-negative rate. */
  lemma {:induction false} PowGrowthBound(r: real, k: nat)
    requires r >= 0.0
    ensures Pow(1.0 + r, k) - 1.0 <= k as real * r * Pow(1.0 + r, k)
  {
    if k > 0 {
      PowGrowthBound(r, k - 1);
      PowAtLeastOne(1.0 + r, k - 1);
      var q := Pow(1.0 + r, k - 1);
      var m := (k - 1) as real;
      assert q - 1.0 <= m * r * q;
      assert Pow(1.0 + r, k) == q + r * q;
      assert m * r * q <= m * r * (q + r * q) by {
        assert m * r >= 0.0;
        assert r * q >= 0.0;
        assert m * r * (r * q) >= 0.0;
      }
      assert k as real * r * (q + r * q) == m * r * (q + r * q) + r * (q + r * q);
      assert r * q <= r * (q + r * q);
    }
  }

  /** The defining equation of the annuity installment: `e (q^n - 1) = P r q^n`. */
  lemma ExactEmiEquation(principal: real, annualRate: real, months: int)
    requires EmiDefined(annualRate, months)
    requires MonthlyRate(annualRate) != 0.0
    ensures var r := MonthlyRate(annualRate);
            var q := Pow(1.0 + r, months);
            ExactEmi(principal, annualRate, months) * (q - 1.0) == principal * r * q
  {
  }

  /** An installment `e` with `e (q - 1) = P r q` is at least `P / n` whenever `0 < q - 1 <= n r q`. */
  lemma StraightLineBelowAnnuity(principal: real, r: real, q: real, n: real, e: real)
    requires principal >= 0.0 && n > 0.0 && q > 1.0
    requires q - 1.0 <= n * r * q
    requires e * (q - 1.0) == principal * r * q
    ensures principal / n <= e
  {
    var d := q - 1.0;
    var lhs := principal / n;
    assert lhs * n == principal;
    assert principal * d <= principal * (n * r * q);
    assert lhs * (n * d) == principal * d;
    assert e * (n * d) == principal * (n * r * q);
    assert n * d > 0.0;
  }

  /** With a non-negative rate the installment is at least the interest-free `P / n`. */
  lemma ExactEmiAtLeastStraightLine(principal: real, annualRate: real, months: int)
    requires principal >= 0.0 && annualRate >= 0.0 && months >= 1
    ensures EmiDefined(annualRate, months)
    ensures ExactEmi(principal, annualRate, months) >= principal / months as real
  {
    NonNegativeRateDefined(annualRate, months);
    var r := MonthlyRate(annualRate);
    if r != 0.0 {
      ExactEmiEquation(principal, annualRate, months);
      PowAtLeastOne(1.0 + r, months);
      PowGrowthBound(r, months);
      StraightLineBelowAnnuity(principal, r, Pow(1.0 + r, months), months as real, ExactEmi(principal, annualRate, months));
    }
  }

  /** The installment is positive once the interest-free share `P / n` exceeds half a cent. */
  lemma CalculateEmiPositive(principal: real, annualRate: real, months: int)
    requires annualRate >= 0.0 && months >= 1
    requires principal / months as real > 0.005
    ensures EmiDefined(annualRate, months)
    ensures CalculateEmi(principal, annualRate, months) > 0.0
  {
    NonNegativeRateDefined(annualRate, months);
    assert principal > 0.0;
    ExactEmiAtLeastStraightLine(principal, annualRate, months);
    if MonthlyRate(annualRate) != 0.0 {
      var x := ExactEmi(principal, annualRate, months);
      var k := RoundHalfEven(x * 100.0);
      assert x * 100.0 > 0.5;
      assert k >= 1;
    }
  }

  /** 120000 at 0% over 12 months is exactly 10000 a month. */
  lemma InterestFreeExample()
    ensures EmiDefined(0.0, 12)
    ensures CalculateEmi(120000.0, 0.0, 12) == 10000.0
  {
  }

  /** 100000 at 12% over 12 months: `(1.01)^12` pins the installment to about 8884.88. */
  lemma TwelvePercentExample()
    ensures EmiDefined(12.0, 12)
    ensures 8800.0 < CalculateEmi(100000.0, 12.0, 12) < 8900.0
  {
    NonNegativeRateDefined(12.0, 12);
    assert MonthlyRate(12.0) == 0.01;
    var q := Pow(1.01, 12);
    assert q == 1.126825030131969720661201;
    var x := ExactEmi(100000.0, 12.0, 12);
    assert x == 1000.0 * q / (q - 1.0);
    assert 8884.0 < x < 8886.0;
  }
}

=== FILE: eligibility.dfy ===
/** `LoanEligibilityEvaluator`: over-limit rejection, first-match tier
    lookup with a rate floor, amortised installment, and a strict
    affordability check. */
module Eligibility {
  import opened Wrappers
  import opened Rounding
  import opened Models
  import opened Settings
  import opened Scoring
  import opened Amortisation

  /** Why a request was decided as it was; the source reports these as message strings. */
  datatype Reason =
    | DebtExceedsLimit
    | ScoreBelowThreshold(score: int)
    | EmiExceedsIncomeShare(installment: real, maxRatio: real)
    | LoanApproved

  /** The value `evaluate_eligibility` returns. */
  datatype Decision = Decision(
    approved: bool,
    creditScore: int,
    correctedInterestRate: real,
    monthlyInstallment: real,
    reason: Reason)

  /** The outcome of `_get_approval_decision`. */
  datatype TierDecision = TierApproved(interestRate: real, rule: string) | TierRejected

  /** The position of the first tier, in configured order, whose range contains the score. */
  function FindTier(tiers: seq<Tier>, score: int): (r: Option<nat>)
    ensures r.Some? ==> r.value < |tiers| && InTier(tiers[r.value], score)
    ensures r.Some? ==> forall j :: 0 <= j < r.value ==> !InTier(tiers[j], score)
    ensures r.None? <==> forall j :: 0 <= j < |tiers| ==> !InTier(tiers[j], score)
  {
    if |tiers| == 0 then None
    else if InTier(tiers[0], score) then Some(0)
    else
      match FindTier(tiers[1..], score)
      case None => None
      case Some(i) => Some(i + 1)
  }

  /** A tier that contains the score, with no earlier tier containing it, is the one found. */
  lemma FindTierIs(tiers: seq<Tier>, score: int, j: nat)
    requires j < |tiers| && InTier(tiers[j], score)
    requires forall k :: 0 <= k < j ==> !InTier(tiers[k], score)
    ensures FindTier(tiers, score) == Some(j)
  {
  }

  /** `_get_approval_decision`: the first matching tier keeps the requested
      rate when it has none and raises it to its floor otherwise. */
  function GetApprovalDecision(tiers: seq<Tier>, score: int, requestedRate: real): (d: TierDecision)
    ensures d.TierRejected? <==> FindTier(tiers, score).None?
    ensures d.TierApproved? ==> d.interestRate >= requestedRate
    ensures d.TierApproved? ==>
              var t := tiers[FindTier(tiers, score).value];
              && d.rule == t.name
              && (t.interestRate.None? ==> d.interestRate == requestedRate)
              && (t.interestRate.Some? ==> d.interestRate >= t.interestRate.value)
              && (t.interestRate.Some? && requestedRate < t.interestRate.value ==> d.interestRate == t.interestRate.value)
              && (t.interestRate.Some? && requestedRate >= t.interestRate.value ==> d.interestRate == requestedRate)
  {
    match FindTier(tiers, score)
    case None => TierRejected
    case Some(i) =>
      match tiers[i].interestRate
      case None => TierApproved(requestedRate, tiers[i].name)
      case Some(floor) => TierApproved(Max(requestedRate, floor), tiers[i].name)
  }

  /** `max_allowed_emi`: the share of the monthly income an installment may take. */
  function MaxAllowedEmi(monthlyIncome: real, maxRatio: real): real
  {
    monthlyIncome * maxRatio
  }

  /** `_check_emi_to_salary_ratio`: rejects only an installment strictly above the income share. */
  function CheckEmiToSalaryRatio(monthlyIncome: real, installment: real, maxRatio: real): (ok: bool)
    ensures ok <==> installment <= MaxAllowedEmi(monthlyIncome, maxRatio)
  {
    !(installment > MaxAllowedEmi(monthlyIncome, maxRatio))
  }

  /** Steps 3 to 6 of `evaluate_eligibility` for a customer within the
      limit: tier lookup, installment at the corrected rate, affordability. */
  function DecideWithinLimit(
    monthlyIncome: real, creditScore: int, tiers: seq<Tier>, maxRatio: real,
    loanAmount: real, interestRate: real, tenure: int): (d: Decision)
    requires tenure >= 1 && interestRate >= 0.0
    ensures d.creditScore == creditScore
    ensures !d.reason.DebtExceedsLimit?
    ensures d.correctedInterestRate >= interestRate
    ensures d.approved <==> d.reason == LoanApproved
    ensures d.reason.ScoreBelowThreshold? <==> FindTier(tiers, creditScore).None?
    ensures d.reason.ScoreBelowThreshold? ==>
              d.correctedInterestRate == interestRate && d.monthlyInstallment == 0.0
    ensures !d.reason.ScoreBelowThreshold? ==>
              && GetApprovalDecision(tiers, creditScore, interestRate) == TierApproved(d.correctedInterestRate, tiers[FindTier(tiers, creditScore).value].name)
              && EmiDefined(d.correctedInterestRate, tenure)
              && d.monthlyInstallment == CalculateEmi(loanAmount, d.correctedInterestRate, tenure)
    ensures d.reason.EmiExceedsIncomeShare? ==> d.monthlyInstallment > MaxAllowedEmi(monthlyIncome, maxRatio)
    ensures !d.reason.ScoreBelowThreshold? && !d.approved ==> d.reason.EmiExceedsIncomeShare?
    ensures d.approved ==> d.monthlyInstallment <= MaxAllowedEmi(monthlyIncome, maxRatio)
  {
    match GetApprovalDecision(tiers, creditScore, interestRate)
    case TierRejected =>
      Decision(false, creditScore, interestRate, 0.0, ScoreBelowThreshold(creditScore))
    case TierApproved(correctedRate, _) =>
      NonNegativeRateDefined(correctedRate, tenure);
      var installment := CalculateEmi(loanAmount, correctedRate, tenure);
      if !CheckEmiToSalaryRatio(monthlyIncome, installment, maxRatio) then
        Decision(false, creditScore, correctedRate, installment, EmiExceedsIncomeShare(installment, maxRatio))
      else
        Decision(true, creditScore, correctedRate, installment, LoanApproved)
  }

  /** `evaluate_eligibility` for a request of `loanAmount` at `interestRate`
      over `tenure` months, under the given weights, tiers and ratio. An
      over-limit customer is rejected with the score reported as 0. */
  function EvaluateEligibility(
    c: Customer, loans: seq<Loan>, clock: Clock,
    weights: Weights, tiers: seq<Tier>, maxRatio: real,
    loanAmount: real, interestRate: real, tenure: int): (d: Decision)
    requires ValidLoans(loans)
    requires tenure >= 1 && interestRate >= 0.0
    ensures c.currentDebt > c.approvedLimit ==> d == Decision(false, 0, interestRate, 0.0, DebtExceedsLimit)
    ensures c.currentDebt <= c.approvedLimit ==>
              d == DecideWithinLimit(c.monthlyIncome, d.creditScore, tiers, maxRatio, loanAmount, interestRate, tenure)
    ensures d.reason.DebtExceedsLimit? <==> c.currentDebt > c.approvedLimit
    ensures 0 <= d.creditScore <= 100
    ensures d.correctedInterestRate >= interestRate
    ensures d.approved <==> d.reason == LoanApproved
    ensures d.reason.ScoreBelowThreshold? ==>
              && FindTier(tiers, d.creditScore).None?
              && d.correctedInterestRate == interestRate && d.monthlyInstallment == 0.0
    ensures d.reason.EmiExceedsIncomeShare? || d.approved ==>
              && FindTier(tiers, d.creditScore).Some?
              && EmiDefined(d.correctedInterestRate, tenure)
              && d.monthlyInstallment == CalculateEmi(loanAmount, d.correctedInterestRate, tenure)
    ensures d.reason.EmiExceedsIncomeShare? ==> d.monthlyInstallment > MaxAllowedEmi(c.monthlyIncome, maxRatio)
    ensures d.approved ==> d.monthlyInstallment <= MaxAllowedEmi(c.monthlyIncome, maxRatio)
  {
    if c.currentDebt > c.approvedLimit then
      Decision(false, 0, interestRate, 0.0, DebtExceedsLimit)
    else
      var score := CalculateCreditScore(c, loans, clock, weights);
      DecideWithinLimit(c.monthlyIncome, score.overallScore, tiers, maxRatio, loanAmount, interestRate, tenure)
  }
}

/** Properties of the eligibility evaluator under the default configuration. */
module EligibilityProperties {
  import opened Wrappers
  import opened Models
  import opened Settings
  import opened Scoring
  import opened Eligibility

  /** Within the limit, the score reported is the calculator's overall score. */
  lemma EvaluateEligibilityReportsScore(
    c: Customer, loans: seq<Loan>, clock: Clock, weights: Weights, tiers: seq<Tier>, maxRatio: real,
    loanAmount: real, interestRate: real, tenure: int)
    requires ValidLoans(loans) && c.currentDebt <= c.approvedLimit
    requires tenure >= 1 && interestRate >= 0.0
    ensures EvaluateEligibility(c, loans, clock, weights, tiers, maxRatio, loanAmount, interestRate, tenure).creditScore
         == CalculateCreditScore(c, loans, clock, weights).overallScore
  {
  }

  /** The over-limit rejection ignores the loan terms: any two requests at
      the same rate get the same decision. */
  lemma OverLimitIgnoresTerms(
    c: Customer, loans: seq<Loan>, clock: Clock, weights: Weights, tiers: seq<Tier>, maxRatio: real,
    amount1: real, amount2: real, rate: real, tenure1: int, tenure2: int)
    requires ValidLoans(loans) && c.currentDebt > c.approvedLimit
    requires tenure1 >= 1 && tenure2 >= 1 && rate >= 0.0
    ensures EvaluateEligibility(c, loans, clock, weights, tiers, maxRatio, amount1, rate, tenure1)
         == EvaluateEligibility(c, loans, clock, weights, tiers, maxRatio, amount2, rate, tenure2)
    ensures !EvaluateEligibility(c, loans, clock, weights, tiers, maxRatio, amount1, rate, tenure1).approved
  {
  }

  /** Every score 0..100 has a default tier, and it is the one named after the score's grade. */
  lemma DefaultTierMatchesGrade(score: int)
    requires 0 <= score <= 100
    ensures FindTier(DefaultTiers, score).Some?
    ensures var g := ScoreGrade(score);
            var name := DefaultTiers[FindTier(DefaultTiers, score).value].name;
            && (g == Excellent <==> name == "EXCELLENT")
            && (g == Good <==> name == "GOOD")
            && (g == Fair <==> name == "FAIR")
            && (g == Poor <==> name == "POOR")
  {
    if score >= 50 {
      FindTierIs(DefaultTiers, score, 0);
    } else if score >= 30 {
      FindTierIs(DefaultTiers, score, 1);
    } else if score >= 10 {
      FindTierIs(DefaultTiers, score, 2);
    } else {
      FindTierIs(DefaultTiers, score, 3);
    }
  }

  /** Under the default tiers the "below minimum threshold" rejection is
      unreachable for any clamped score. */
  lemma DefaultTiersNeverRejectScore(
    monthlyIncome: real, creditScore: int, maxRatio: real,
    loanAmount: real, interestRate: real, tenure: int)
    requires 0 <= creditScore <= 100
    requires tenure >= 1 && interestRate >= 0.0
    ensures !DecideWithinLimit(monthlyIncome, creditScore, DefaultTiers, maxRatio,
                               loanAmount, interestRate, tenure).reason.ScoreBelowThreshold?
  {
    DefaultTierMatchesGrade(creditScore);
  }

  /** The default rate corrections: 55 keeps the requested rate, 35 is raised
      to at least 12%, 15 to at least 16%, and 5 falls into POOR, which has no
      floor and so is approved at the requested rate. */
  lemma DefaultRateCorrections(requested: real)
    ensures GetApprovalDecision(DefaultTiers, 55, requested) == TierApproved(requested, "EXCELLENT")
    ensures GetApprovalDecision(DefaultTiers, 35, requested) == TierApproved(Rounding.Max(requested, 12.0), "GOOD")
    ensures GetApprovalDecision(DefaultTiers, 15, requested) == TierApproved(Rounding.Max(requested, 16.0), "FAIR")
    ensures GetApprovalDecision(DefaultTiers, 5, requested) == TierApproved(requested, "POOR")
  {
    FindTierIs(DefaultTiers, 55, 0);
    FindTierIs(DefaultTiers, 35, 1);
    FindTierIs(DefaultTiers, 15, 2);
    FindTierIs(DefaultTiers, 5, 3);
  }

  /** At half of a 10000 income, an installment of 5000.00 passes and 5000.01 does not. */
  lemma AffordabilityBoundary()
    ensures CheckEmiToSalaryRatio(10000.0, 5000.00, MaxEmiToSalaryRatio)
    ensures !CheckEmiToSalaryRatio(10000.0, 5000.01, MaxEmiToSalaryRatio)
  {
  }

  /** A debt equal to the limit is not over the limit. */
  lemma DebtAtLimitNotRejectedForDebt(
    c: Customer, loans: seq<Loan>, clock: Clock, weights: Weights, tiers: seq<Tier>, maxRatio: real,
    loanAmount: real, interestRate: real, tenure: int)
    requires ValidLoans(loans) && c.currentDebt == c.approvedLimit
    requires tenure >= 1 && interestRate >= 0.0
    ensures !EvaluateEligibility(c, loans, clock, weights, tiers, maxRatio, loanAmount, interestRate, tenure).reason.DebtExceedsLimit?
  {
  }
}

=== FILE: models.dfy ===
/** The customer, loan and credit-score records, with the derived
    properties the models compute from their own fields. Dates are day
    numbers; "today" is always a parameter. */
module Models {
  import opened Aggregates
  import Rounding
  import Amortisation

  /** The financial fields of a customer; names, age and phone number are
      only checked at registration and play no part in scoring. */
  datatype Customer = Customer(
    monthlyIncome: real,
    approvedLimit: real,
    currentDebt: real)

  /** A loan record. `monthlyRepayment` of 0 stands for "not set yet",
      which is what `save()` tests for. */
  datatype Loan = Loan(
    loanAmount: real,
    tenure: int,
    interestRate: real,
    monthlyRepayment: real,
    emisPaidOnTime: nat,
    approved: bool,
    startDate: int,
    endDate: int)

  /** The grade attached to a stored credit score. */
  datatype Grade = Excellent | Good | Fair | Poor

  /** `Customer.credit_utilization`: debt as a percentage of the limit, 0 for a zero limit. */
  function CreditUtilization(c: Customer): (pct: real)
    ensures c.approvedLimit == 0.0 ==> pct == 0.0
    ensures c.approvedLimit != 0.0 ==> pct * c.approvedLimit == c.currentDebt * 100.0
    ensures c.approvedLimit > 0.0 && 0.0 <= c.currentDebt <= c.approvedLimit ==> 0.0 <= pct <= 100.0
  {
    if c.approvedLimit == 0.0 then 0.0
    else (c.currentDebt / c.approvedLimit) * 100.0
  }

  function IsApproved(l: Loan): bool
  {
    l.approved
  }

  function LoanAmount(l: Loan): real
  {
    l.loanAmount
  }

  /** The approved loans, in order: `loans.filter(loan_approved=True)`. */
  function ApprovedLoans(loans: seq<Loan>): (r: seq<Loan>)
    ensures forall i :: 0 <= i < |r| ==> r[i].approved && r[i] in loans
    ensures forall i :: 0 <= i < |loans| && loans[i].approved ==> loans[i] in r
    ensures forall l :: multiset(r)[l] == if l.approved then multiset(loans)[l] else 0
  {
    FilterMultiplicity(loans, IsApproved);
    Filter(loans, IsApproved)
  }

  /** `aggregate(total=Sum('loan_amount'))['total'] or 0` over the approved loans. */
  function ApprovedAmount(loans: seq<Loan>): real
  {
    Sum(ApprovedLoans(loans), LoanAmount)
  }

  /** `update_current_debt` without the save: the debt becomes the sum of
      the approved loans' amounts and nothing else about the customer changes. */
  function UpdateCurrentDebt(c: Customer, loans: seq<Loan>): (r: Customer)
    ensures r.monthlyIncome == c.monthlyIncome && r.approvedLimit == c.approvedLimit
    ensures (forall i :: 0 <= i < |loans| ==> !loans[i].approved) ==> r.currentDebt == 0.0
    ensures (forall i :: 0 <= i < |loans| ==> loans[i].loanAmount >= 0.0) ==> r.currentDebt >= 0.0
  {
    var r := c.(currentDebt := ApprovedAmount(loans));
    ApprovedAmountBounds(loans);
    r
  }

  /** The approved total is 0 without approved loans and non-negative over non-negative amounts. */
  lemma ApprovedAmountBounds(loans: seq<Loan>)
    ensures (forall i :: 0 <= i < |loans| ==> !loans[i].approved) ==> ApprovedAmount(loans) == 0.0
    ensures (forall i :: 0 <= i < |loans| ==> loans[i].loanAmount >= 0.0) ==> ApprovedAmount(loans) >= 0.0
  {
    var a := ApprovedLoans(loans);
    if forall i :: 0 <= i < |loans| ==> loans[i].loanAmount >= 0.0 {
      forall i | 0 <= i < |a| ensures 0.0 <= LoanAmount(a[i]) {
        assert a[i] in loans;
      }
    }
    SumNonNegative(a, LoanAmount);
  }

  /** Inserting a loan anywhere changes the debt by its amount if it is
      approved and not at all otherwise. */
  lemma {:induction false} UpdateCurrentDebtInsert(c: Customer, before: seq<Loan>, l: Loan, after: seq<Loan>)
    ensures UpdateCurrentDebt(c, before + [l] + after).currentDebt
         == UpdateCurrentDebt(c, before + after).currentDebt + (if l.approved then l.loanAmount else 0.0)
  {
    FilterAppend(before + [l], after, IsApproved);
    FilterAppend(before, [l], IsApproved);
    FilterAppend(before, after, IsApproved);
    var fb := Filter(before, IsApproved);
    var fl := Filter([l], IsApproved);
    var fa := Filter(after, IsApproved);
    SumAppend(fb + fl, fa, LoanAmount);
    SumAppend(fb, fl, LoanAmount);
    SumAppend(fb, fa, LoanAmount);
    assert Filter([l][1..], IsApproved) == [];
  }

  /** `Loan.repayments_left`: `max(0, tenure - emis_paid_on_time)`. */
  function RepaymentsLeft(l: Loan): (n: nat)
    ensures n == 0 <==> l.emisPaidOnTime >= l.tenure
    ensures n > 0 ==> n + l.emisPaidOnTime == l.tenure
  {
    if l.tenure - l.emisPaidOnTime > 0 then l.tenure - l.emisPaidOnTime else 0
  }

  /** `Loan.is_active`: approved, running today, and not yet paid off. */
  function IsActive(l: Loan, today: int): (active: bool)
    ensures active <==> l.approved && l.startDate <= today <= l.endDate && l.emisPaidOnTime < l.tenure
  {
    l.approved && l.startDate <= today <= l.endDate && RepaymentsLeft(l) > 0
  }

  /** `Loan.payment_completion_rate`: installments paid on time as a percentage of the tenure. */
  function PaymentCompletionRate(l: Loan): (pct: real)
    ensures l.tenure == 0 ==> pct == 0.0
    ensures l.tenure != 0 ==> pct * l.tenure as real == l.emisPaidOnTime as real * 100.0
    ensures l.tenure > 0 ==> 0.0 <= pct
    ensures l.tenure > 0 ==> (pct >= 100.0 <==> l.emisPaidOnTime >= l.tenure)
    ensures l.tenure > 0 ==> (pct == 100.0 <==> l.emisPaidOnTime == l.tenure)
    ensures l.tenure > 0 ==> (pct >= 80.0 <==> l.emisPaidOnTime as real >= l.tenure as real * 0.8)
  {
    PercentageThresholds(l.emisPaidOnTime as real, l.tenure as real);
    if l.tenure == 0 then 0.0
    else (l.emisPaidOnTime as real / l.tenure as real) * 100.0
  }

  /** How the percentage `e / t * 100` compares with 100 and 80 for a positive `t`. */
  lemma PercentageThresholds(e: real, t: real)
    ensures t != 0.0 ==> e / t * 100.0 * t == e * 100.0
    ensures t > 0.0 && e >= 0.0 ==> e / t * 100.0 >= 0.0
    ensures t > 0.0 ==> (e / t * 100.0 >= 100.0 <==> e >= t)
    ensures t > 0.0 ==> (e / t * 100.0 == 100.0 <==> e == t)
    ensures t > 0.0 ==> (e / t * 100.0 >= 80.0 <==> e >= t * 0.8)
  {
    if t != 0.0 {
      var p := e / t * 100.0;
      assert p * t == e * 100.0;
      if t > 0.0 {
        assert p >= 100.0 <==> p * t >= 100.0 * t;
        assert p >= 80.0 <==> p * t >= 80.0 * t;
        assert e * 100.0 >= 80.0 * t <==> e >= t * 0.8;
        assert p == 100.0 <==> p * t == 100.0 * t;
      }
    }
  }

  /** `Loan.calculate_monthly_installment`: the same installment the
      eligibility evaluator computes for this amount, rate and tenure. */
  function CalculateMonthlyInstallment(l: Loan): (emi: real)
    requires Amortisation.EmiDefined(l.interestRate, l.tenure)
    ensures emi == Amortisation.CalculateEmi(l.loanAmount, l.interestRate, l.tenure)
  {
    var r := Amortisation.MonthlyRate(l.interestRate);
    if r == 0.0 then l.loanAmount / l.tenure as real
    else Rounding.RoundToCents(Amortisation.ExactEmi(l.loanAmount, l.interestRate, l.tenure))
  }

  /** The installment step of `Loan.save()`: an unset repayment is filled
      in from the amortisation formula; a set one is kept. */
  function SaveLoan(l: Loan): (r: Loan)
    requires l.monthlyRepayment == 0.0 ==> Amortisation.EmiDefined(l.interestRate, l.tenure)
    ensures r.(monthlyRepayment := l.monthlyRepayment) == l
    ensures l.monthlyRepayment != 0.0 ==> r == l
    ensures l.monthlyRepayment == 0.0 ==> r.monthlyRepayment == Amortisation.CalculateEmi(l.loanAmount, l.interestRate, l.tenure)
  {
    if l.monthlyRepayment != 0.0 then l
    else l.(monthlyRepayment := CalculateMonthlyInstallment(l))
  }

  /** Saving twice fills the installment no differently from saving once. */
  lemma SaveLoanIdempotent(l: Loan)
    requires l.monthlyRepayment == 0.0 ==> Amortisation.EmiDefined(l.interestRate, l.tenure)
    ensures SaveLoan(l).monthlyRepayment == 0.0 ==> Amortisation.EmiDefined(l.interestRate, l.tenure)
    ensures SaveLoan(SaveLoan(l)) == SaveLoan(l)
  {
  }

  /** `CreditScore.score_grade`: defined for every integer score. */
  function ScoreGrade(score: int): (g: Grade)
    ensures g == Excellent <==> 50 <= score
    ensures g == Good <==> 30 <= score < 50
    ensures g == Fair <==> 10 <= score < 30
    ensures g == Poor <==> score < 10
  {
    if score >= 50 then Excellent
    else if score >= 30 then Good
    else if score >= 10 then Fair
    else Poor
  }

  /** The example customer: 360000 owed on a limit of 1800000 is 20% utilised. */
  lemma CreditUtilizationExample()
    ensures CreditUtilization(Customer(50000.0, 1800000.0, 360000.0)) == 20.0
  {
  }

  /** The example loan: 5 of 12 installments paid leaves 7, and it is active on its start day. */
  lemma LoanPropertiesExample(today: int)
    ensures var l := Loan(200000.0, 12, 10.0, 17583.18, 5, true, today, today + 365);
            RepaymentsLeft(l) == 7 && IsActive(l, today)
            && PaymentCompletionRate(l) * 12.0 == 500.0
  {
  }
}

=== FILE: rounding.dfy ===
/** The integer conversions and roundings the engine applies to exact
    amounts: Python's `int()` (truncation toward zero), `round()` on a
    Decimal (half to even), and the `min(100, max(0, x))` clamp of every
    score. */
module Rounding {

  /** Python's `int(x)` on a number: drops the fraction, toward zero. */
  function Trunc(x: real): (r: int)
    ensures 0.0 <= x ==> r as real <= x < r as real + 1.0
    ensures x < 0.0 ==> r as real - 1.0 < x <= r as real
    ensures 0.0 <= x ==> 0 <= r
    ensures x <= 0.0 ==> r <= 0
  {
    if x >= 0.0 then x.Floor else -((-x).Floor)
  }

  /** True when `k` is a nearest integer to `x`, ties going to the even one. */
  ghost predicate IsHalfEvenRounding(x: real, k: int)
  {
    || (k as real - x < 0.5 && x - k as real < 0.5)
    || ((k as real - x == 0.5 || x - k as real == 0.5) && k % 2 == 0)
  }

  /** Python's `round(d)` on a Decimal: nearest integer, ties to even. */
  function RoundHalfEven(x: real): (r: int)
    ensures IsHalfEvenRounding(x, r)
    ensures -0.5 <= r as real - x <= 0.5
  {
    var f := x.Floor;
    var d := x - f as real;
    if d < 0.5 then f
    else if d > 0.5 then f + 1
    else if f % 2 == 0 then f
    else f + 1
  }

  /** There is exactly one half-even rounding of a number. */
  lemma HalfEvenRoundingUnique(x: real, k: int)
    requires IsHalfEvenRounding(x, k)
    ensures k == RoundHalfEven(x)
  {
  }

  /** `round(x, 2)`: the nearest whole number of cents, ties to even. */
  function RoundToCents(x: real): (r: real)
    ensures -0.005 <= r - x <= 0.005
    ensures IsWholeCents(r)
  {
    var k := RoundHalfEven(x * 100.0);
    assert (k as real / 100.0) * 100.0 == k as real;
    k as real / 100.0
  }

  /** `x` is an exact number of cents. */
  ghost predicate IsWholeCents(x: real)
  {
    exists k: int {:trigger k as real} :: x * 100.0 == k as real
  }

  function Min(a: real, b: real): (r: real)
    ensures r <= a && r <= b
    ensures r == a || r == b
  {
    if a <= b then a else b
  }

  function Max(a: real, b: real): (r: real)
    ensures a <= r && b <= r
    ensures r == a || r == b
  {
    if a >= b then a else b
  }

  /** `min(100, max(0, x))`, applied to every sub-score. */
  function ClampScore(x: real): (r: real)
    ensures 0.0 <= r <= 100.0
    ensures 0.0 <= x <= 100.0 ==> r == x
    ensures x < 0.0 ==> r == 0.0
    ensures 100.0 < x ==> r == 100.0
  {
    Min(100.0, Max(0.0, x))
  }

  /** `max(0, min(100, k))` on an integer score. */
  function ClampInt(k: int): (r: int)
    ensures 0 <= r <= 100
    ensures 0 <= k <= 100 ==> r == k
    ensures k < 0 ==> r == 0
    ensures 100 < k ==> r == 100
  {
    if k < 0 then 0 else if k > 100 then 100 else k
  }
}

=== FILE: scorestatistics.dfy ===
/** `_get_score_statistics` of the score-refresh command: how many scores
    are stored, their average to the cent, and a four-bucket histogram. */
module ScoreStatistics {
  import opened Aggregates
  import opened Rounding
  import opened Models

  datatype Stats = Stats(
    total: nat,
    average: real,
    excellent: nat,
    good: nat,
    fair: nat,
    poor: nat)

  /** `score__gte=50`. */
  predicate ExcellentBucket(score: int) { score >= 50 }

  /** `score__gte=30, score__lt=50`. */
  predicate GoodBucket(score: int) { 30 <= score < 50 }

  /** `score__gte=10, score__lt=30`. */
  predicate FairBucket(score: int) { 10 <= score < 30 }

  /** `score__lt=10`. */
  predicate PoorBucket(score: int) { score < 10 }

  function ScoreValue(score: int): real
  {
    score as real
  }

  /** The scores whose grade is `g`. */
  function HasGrade(g: Grade): int -> bool
  {
    (score: int) => ScoreGrade(score) == g
  }

  /** `Avg('score')` over a non-empty set of scores. */
  function Average(scores: seq<int>): (avg: real)
    requires |scores| > 0
    ensures (forall i :: 0 <= i < |scores| ==> 0 <= scores[i] <= 100) ==> 0.0 <= avg <= 100.0
  {
    AverageBounds(scores, ScoreValue, 100.0);
    Sum(scores, ScoreValue) / |scores| as real
  }

  /** Every score lies in exactly one bucket, so the bucket counts add up to the number of scores. */
  lemma {:induction false} BucketsPartition(scores: seq<int>)
    ensures CountIf(scores, ExcellentBucket) + CountIf(scores, GoodBucket)
          + CountIf(scores, FairBucket) + CountIf(scores, PoorBucket) == |scores|
  {
    if |scores| > 0 {
      BucketsPartition(scores[1..]);
    }
  }

  /** The bucket boundaries are the grade boundaries: each bucket counts the scores of one grade. */
  lemma BucketsAreGrades(scores: seq<int>)
    ensures CountIf(scores, ExcellentBucket) == CountIf(scores, HasGrade(Excellent))
    ensures CountIf(scores, GoodBucket) == CountIf(scores, HasGrade(Good))
    ensures CountIf(scores, FairBucket) == CountIf(scores, HasGrade(Fair))
    ensures CountIf(scores, PoorBucket) == CountIf(scores, HasGrade(Poor))
  {
    FilterCongruent(scores, ExcellentBucket, HasGrade(Excellent));
    FilterCongruent(scores, GoodBucket, HasGrade(Good));
    FilterCongruent(scores, FairBucket, HasGrade(Fair));
    FilterCongruent(scores, PoorBucket, HasGrade(Poor));
  }

  /** Counting by a predicate over one more element. */
  lemma CountIfSnoc(s: seq<int>, x: int, p: int -> bool)
    ensures CountIf(s + [x], p) == CountIf(s, p) + (if p(x) then 1 else 0)
  {
    FilterAppend(s, [x], p);
    assert Filter([x][1..], p) == [];
  }

  /** Summing over one more element. */
  lemma SumSnoc(s: seq<int>, x: int, f: int -> real)
    ensures Sum(s + [x], f) == Sum(s, f) + f(x)
  {
    SumAppend(s, [x], f);
    assert Sum([x][1..], f) == 0.0;
  }

  /** Running counts of the four buckets and the running sum of the scores. */
  datatype Tally = Tally(excellent: nat, good: nat, fair: nat, poor: nat, sum: real)

  /** Adds one score to a tally: one more in its bucket, and its value to the sum. */
  function AddScore(t: Tally, score: int): Tally
  {
    Tally(
      t.excellent + (if ExcellentBucket(score) then 1 else 0),
      t.good + (if GoodBucket(score) then 1 else 0),
      t.fair + (if FairBucket(score) then 1 else 0),
      t.poor + (if PoorBucket(score) then 1 else 0),
      t.sum + ScoreValue(score))
  }

  /** The tally of a sequence of scores, taken left to right. */
  function TallyOf(scores: seq<int>): Tally
  {
    if |scores| == 0 then Tally(0, 0, 0, 0, 0.0)
    else AddScore(TallyOf(scores[..|scores| - 1]), scores[|scores| - 1])
  }

  /** Tallying one more score of a prefix counts that score into the prefix's tally. */
  lemma TallyOfPrefix(scores: seq<int>, i: int)
    requires 0 <= i < |scores|
    ensures TallyOf(scores[..i + 1]) == AddScore(TallyOf(scores[..i]), scores[i])
  {
    assert scores[..i + 1][..i] == scores[..i];
  }

  /** The tally's first two counts are the excellent and good filters' counts. */
  lemma {:induction false} TallyOfUpperBuckets(scores: seq<int>)
    ensures TallyOf(scores).excellent == CountIf(scores, ExcellentBucket)
    ensures TallyOf(scores).good == CountIf(scores, GoodBucket)
  {
    if |scores| > 0 {
      var init := scores[..|scores| - 1];
      var x := scores[|scores| - 1];
      TallyOfUpperBuckets(init);
      assert scores == init + [x];
      CountIfSnoc(init, x, ExcellentBucket);
      CountIfSnoc(init, x, GoodBucket);
    }
  }

  /** The tally's last two counts are the fair and poor filters' counts. */
  lemma {:induction false} TallyOfLowerBuckets(scores: seq<int>)
    ensures TallyOf(scores).fair == CountIf(scores, FairBucket)
    ensures TallyOf(scores).poor == CountIf(scores, PoorBucket)
  {
    if |scores| > 0 {
      var init := scores[..|scores| - 1];
      var x := scores[|scores| - 1];
      TallyOfLowerBuckets(init);
      assert scores == init + [x];
      CountIfSnoc(init, x, FairBucket);
      CountIfSnoc(init, x, PoorBucket);
    }
  }

  /** The tally's running sum is the sum of the scores. */
  lemma {:induction false} TallyOfSum(scores: seq<int>)
    ensures TallyOf(scores).sum == Sum(scores, ScoreValue)
  {
    if |scores| > 0 {
      var init := scores[..|scores| - 1];
      var x := scores[|scores| - 1];
      TallyOfSum(init);
      assert scores == init + [x];
      SumSnoc(init, x, ScoreValue);
    }
  }

  /** A tally of all the scores holds the four bucket counts, which add up
      to the number of scores, and the sum of the scores. */
  lemma TallyOfIsStatistics(scores: seq<int>, t: Tally)
    requires t == TallyOf(scores)
    ensures t.excellent == CountIf(scores, ExcellentBucket)
    ensures t.good == CountIf(scores, GoodBucket)
    ensures t.fair == CountIf(scores, FairBucket)
    ensures t.poor == CountIf(scores, PoorBucket)
    ensures t.sum == Sum(scores, ScoreValue)
    ensures t.excellent + t.good + t.fair + t.poor == |scores|
  {
    TallyOfUpperBuckets(scores);
    TallyOfLowerBuckets(scores);
    TallyOfSum(scores);
    BucketsPartition(scores);
  }

  /** `_get_score_statistics` in one pass over the scores: all zeros for no
      scores; otherwise the count, the average rounded to cents, and the
      four bucket counts. */
  method GetScoreStatistics(scores: seq<int>) returns (st: Stats)
    ensures |scores| == 0 ==> st == Stats(0, 0.0, 0, 0, 0, 0)
    ensures st.total == |scores|
    ensures |scores| > 0 ==> st.average == RoundToCents(Sum(scores, ScoreValue) / |scores| as real)
    ensures st.excellent == CountIf(scores, ExcellentBucket)
    ensures st.good == CountIf(scores, GoodBucket)
    ensures st.fair == CountIf(scores, FairBucket)
    ensures st.poor == CountIf(scores, PoorBucket)
    ensures st.excellent + st.good + st.fair + st.poor == st.total
  {
    if |scores| == 0 {
      return Stats(0, 0.0, 0, 0, 0, 0);
    }
    var t := Tally(0, 0, 0, 0, 0.0);
    var i := 0;
    while i < |scores|
      invariant 0 <= i <= |scores|
      invariant t == TallyOf(scores[..i])
    {
      TallyOfPrefix(scores, i);
      t := AddScore(t, scores[i]);
      i := i + 1;
    }
    assert scores[..i] == scores;
    TallyOfIsStatistics(scores, t);
    st := Stats(|scores|, RoundToCents(t.sum / |scores| as real), t.excellent, t.good, t.fair, t.poor);
  }

  /** Stored scores lie in 0..100, so the reported average does too: it is
      within half a cent of [0, 100] and a whole number of cents. */
  lemma AverageWithinScoreRange(scores: seq<int>)
    requires |scores| > 0
    requires forall i :: 0 <= i < |scores| ==> 0 <= scores[i] <= 100
    ensures 0.0 <= RoundToCents(Average(scores)) <= 100.0
  {
    var r := RoundToCents(Average(scores));
    var k: int :| r * 100.0 == k as real;
    assert -0.5 <= r * 100.0 <= 10000.5;
    assert 0 <= k <= 10000;
  }
}

=== FILE: scoring.dfy ===
/** `CreditScoreCalculator`: four sub-scores computed from a customer's
    loans, each in [0, 100], combined by the configured weights into an
    integer score in [0, 100]. */
module Scoring {
  import opened Rounding
  import opened Aggregates
  import opened Models
  import opened Settings

  /** The moment of calculation: today's day number, the day number of
      1 January of the current year, and the customer's account age in
      years (days since registration / 365.25). */
  datatype Clock = Clock(today: int, yearStart: int, accountAgeYears: real)

  /** The value `calculate_credit_score` returns. */
  datatype ScoreResult = ScoreResult(
    overallScore: int,
    pastLoansScore: real,
    loanVolumeScore: real,
    currentYearScore: real,
    creditUtilizationScore: real)

  /** The window of "recent" loans, in days before today. */
  const RecentWindowDays: int := 730

  /** The scoring queries divide by each loan's tenure. */
  predicate ValidLoans(loans: seq<Loan>)
  {
    forall i :: 0 <= i < |loans| ==> loans[i].tenure >= 1
  }

  /** Paid off: every installment paid on time, or the end date has passed. */
  predicate IsCompleted(l: Loan, today: int)
  {
    l.emisPaidOnTime >= l.tenure || l.endDate < today
  }

  /** At least 80% of the installments paid on time. */
  function IsGood(l: Loan): bool
  {
    l.emisPaidOnTime as real >= l.tenure as real * 0.8
  }

  /** Exactly every installment paid on time. */
  function IsExcellent(l: Loan): bool
  {
    l.emisPaidOnTime == l.tenure
  }

  /** Approved and running today (start and end dates inclusive). */
  predicate IsRunning(l: Loan, today: int)
  {
    l.approved && l.startDate <= today && l.endDate >= today
  }

  function CompletedBy(today: int): Loan -> bool
  {
    (l: Loan) => IsCompleted(l, today)
  }

  function StartedOnOrAfter(day: int): Loan -> bool
  {
    (l: Loan) => l.startDate >= day
  }

  function RunningOn(today: int): Loan -> bool
  {
    (l: Loan) => IsRunning(l, today)
  }

  function MonthlyRepayment(l: Loan): real
  {
    l.monthlyRepayment
  }

  /** `aggregate(Avg(emis_paid_on_time * 100.0 / tenure))` over a non-empty
      set of loans; with every tenure positive the per-loan term is the
      loan's payment completion rate. */
  function AveragePaymentPercent(loans: seq<Loan>): (avg: real)
    requires |loans| > 0 && ValidLoans(loans)
    ensures avg >= 0.0
  {
    SumAtLeast(loans, PaymentCompletionRate, 0.0);
    Sum(loans, PaymentCompletionRate) / |loans| as real
  }

  /** `_calculate_past_loans_performance`. */
  function PastLoansPerformance(loans: seq<Loan>, today: int): (score: real)
    requires ValidLoans(loans)
    ensures 0.0 <= score <= 100.0
    ensures |loans| == 0 ==> score == 50.0
  {
    if |loans| == 0 then 50.0
    else
      var completed := Filter(loans, CompletedBy(today));
      if |completed| == 0 then
        var ongoing := ApprovedLoans(loans);
        if |ongoing| > 0 then ClampScore(AveragePaymentPercent(ongoing)) else 50.0
      else
        ClampScore(CompletedLoansFormula(completed, today))
  }

  /** The weighted formula over the completed loans:
      `0.6 good% + 0.2 (excellent share * 20) + 0.2 recent good%`. */
  function CompletedLoansFormula(completed: seq<Loan>, today: int): (score: real)
    requires |completed| > 0
    ensures (forall i :: 0 <= i < |completed| ==> !IsGood(completed[i])) ==> score == 0.0
    ensures (forall i :: 0 <= i < |completed| ==>
               IsExcellent(completed[i]) && completed[i].startDate >= today - RecentWindowDays)
            ==> score == 84.0
  {
    var total := |completed| as real;
    var goodPercentage := CountIf(completed, IsGood) as real / total * 100.0;
    var excellenceBonus := CountIf(completed, IsExcellent) as real / total * 20.0;
    var recent := Filter(completed, StartedOnOrAfter(today - RecentWindowDays));
    var recentPerformance :=
      if |recent| > 0 then CountIf(recent, IsGood) as real / |recent| as real * 100.0 else 0.0;
    CompletedLoansCounts(completed, today);
    WholeShare(CountIf(completed, IsGood), |completed|);
    WholeShare(CountIf(completed, IsExcellent), |completed|);
    WholeShare(CountIf(recent, IsGood), |recent|);
    goodPercentage * 0.6 + excellenceBonus * 0.2 + recentPerformance * 0.2
  }

  /** A share of none is 0 and a share of all is 1. */
  lemma WholeShare(a: nat, b: nat)
    ensures b > 0 && a == 0 ==> a as real / b as real == 0.0
    ensures b > 0 && a == b ==> a as real / b as real == 1.0
  {
  }

  /** An excellent loan is also a good one. */
  lemma ExcellentIsGood(l: Loan)
    ensures IsExcellent(l) ==> IsGood(l)
  {
  }

  /** The counts behind the completed-loans formula at its two extremes:
      nothing good counts nothing, and all excellent and recent counts everything. */
  lemma CompletedLoansCounts(completed: seq<Loan>, today: int)
    ensures var recent := Filter(completed, StartedOnOrAfter(today - RecentWindowDays));
            (forall i :: 0 <= i < |completed| ==> !IsGood(completed[i])) ==>
              CountIf(completed, IsGood) == 0 && CountIf(completed, IsExcellent) == 0
              && CountIf(recent, IsGood) == 0
    ensures var recent := Filter(completed, StartedOnOrAfter(today - RecentWindowDays));
            (forall i :: 0 <= i < |completed| ==>
               IsExcellent(completed[i]) && completed[i].startDate >= today - RecentWindowDays) ==>
              CountIf(completed, IsGood) == |completed| && CountIf(completed, IsExcellent) == |completed|
              && recent == completed && CountIf(recent, IsGood) == |recent|
  {
    forall i | 0 <= i < |completed| {
      ExcellentIsGood(completed[i]);
    }
    var recent := Filter(completed, StartedOnOrAfter(today - RecentWindowDays));
    FilterAll(completed, StartedOnOrAfter(today - RecentWindowDays));
    FilterFullLength(completed, IsGood);
    FilterFullLength(completed, IsExcellent);
    FilterFullLength(recent, IsGood);
  }

  /** `_calculate_loan_volume_score`. */
  function LoanVolumeScore(c: Customer, loans: seq<Loan>, clock: Clock): (score: real)
    ensures 0.0 <= score <= 100.0
    ensures (forall i :: 0 <= i < |loans| ==> !loans[i].approved) ==> score == 0.0
  {
    var approved := ApprovedLoans(loans);
    if |approved| == 0 then 0.0
    else
      var count := |approved| as real;
      var countScore := Min(100.0, count * 10.0);
      var amountScore :=
        if c.approvedLimit > 0.0 then Min(100.0, ApprovedAmount(loans) / c.approvedLimit * 50.0)
        else 0.0;
      var frequencyScore :=
        if clock.accountAgeYears > 0.0 then Min(100.0, count / clock.accountAgeYears * 25.0)
        else 0.0;
      ClampScore(countScore * 0.5 + amountScore * 0.3 + frequencyScore * 0.2)
  }

  /** `_calculate_current_year_activity`. */
  function CurrentYearActivity(loans: seq<Loan>, clock: Clock): (score: real)
    requires ValidLoans(loans)
    ensures 0.0 <= score <= 100.0
    ensures (forall i :: 0 <= i < |loans| ==> loans[i].startDate < clock.yearStart) ==> score == 30.0
  {
    var thisYear := Filter(loans, StartedOnOrAfter(clock.yearStart));
    if |thisYear| == 0 then 30.0
    else
      var count := |thisYear| as real;
      var countScore := Min(100.0, count * 25.0);
      var approvedThisYear := ApprovedLoans(thisYear);
      var approvalRate := |approvedThisYear| as real / count * 100.0;
      var performanceScore :=
        if |approvedThisYear| > 0 then Min(100.0, AveragePaymentPercent(approvedThisYear)) else 0.0;
      ClampScore(countScore * 0.4 + approvalRate * 0.3 + performanceScore * 0.3)
  }

  /** The debt-to-limit ladder: >=1.0 -> 0, >=0.8 -> 20, >=0.6 -> 40,
      >=0.4 -> 60, >=0.2 -> 80, else 100. */
  function UtilizationLadder(ratio: real): (points: real)
    ensures 0.0 <= points <= 100.0
  {
    if ratio >= 1.0 then 0.0
    else if ratio >= 0.8 then 20.0
    else if ratio >= 0.6 then 40.0
    else if ratio >= 0.4 then 60.0
    else if ratio >= 0.2 then 80.0
    else 100.0
  }

  /** The debt-to-income ladder: >=0.5 -> 0, >=0.4 -> 20, >=0.3 -> 40,
      >=0.2 -> 60, >=0.1 -> 80, else 100. */
  function IncomeLadder(ratio: real): (points: real)
    ensures 0.0 <= points <= 100.0
  {
    if ratio >= 0.5 then 0.0
    else if ratio >= 0.4 then 20.0
    else if ratio >= 0.3 then 40.0
    else if ratio >= 0.2 then 60.0
    else if ratio >= 0.1 then 80.0
    else 100.0
  }

  /** The sum of the installments of the loans running today. */
  function MonthlyDebtPayment(loans: seq<Loan>, today: int): (total: real)
    ensures (forall i :: 0 <= i < |loans| ==> !IsRunning(loans[i], today)) ==> total == 0.0
    ensures (forall i :: 0 <= i < |loans| ==> loans[i].monthlyRepayment >= 0.0) ==> total >= 0.0
  {
    var running := Filter(loans, RunningOn(today));
    SumNonNegative(running, MonthlyRepayment);
    Sum(running, MonthlyRepayment)
  }

  /** `_calculate_credit_utilization_score`. */
  function CreditUtilizationScore(c: Customer, loans: seq<Loan>, today: int): (score: real)
    ensures 0.0 <= score <= 100.0
    ensures c.approvedLimit <= 0.0 ==> score == 0.0
  {
    if c.approvedLimit <= 0.0 then 0.0
    else
      var utilizationScore := UtilizationLadder(c.currentDebt / c.approvedLimit);
      var incomeScore :=
        if c.monthlyIncome > 0.0 then IncomeLadder(MonthlyDebtPayment(loans, today) / c.monthlyIncome)
        else 0.0;
      var availableCredit := c.approvedLimit - c.currentDebt;
      var availabilityScore :=
        if availableCredit > 0.0 then Min(100.0, availableCredit / c.approvedLimit * 100.0)
        else 0.0;
      ClampScore(utilizationScore * 0.5 + incomeScore * 0.3 + availabilityScore * 0.2)
  }

  /** `calculate_credit_score`: the four sub-scores and their weighted sum,
      truncated to an integer and clamped to [0, 100]. */
  function CalculateCreditScore(c: Customer, loans: seq<Loan>, clock: Clock, w: Weights): (r: ScoreResult)
    requires ValidLoans(loans)
    ensures 0 <= r.overallScore <= 100
    ensures 0.0 <= r.pastLoansScore <= 100.0 && 0.0 <= r.loanVolumeScore <= 100.0
    ensures 0.0 <= r.currentYearScore <= 100.0 && 0.0 <= r.creditUtilizationScore <= 100.0
    ensures r.overallScore == ClampInt(Trunc(WeightedSum(w, r.pastLoansScore, r.loanVolumeScore,
                                                          r.currentYearScore, r.creditUtilizationScore)))
    ensures r.pastLoansScore == PastLoansPerformance(loans, clock.today)
    ensures r.loanVolumeScore == LoanVolumeScore(c, loans, clock)
    ensures r.currentYearScore == CurrentYearActivity(loans, clock)
    ensures r.creditUtilizationScore == CreditUtilizationScore(c, loans, clock.today)
  {
    var pastLoans := PastLoansPerformance(loans, clock.today);
    var loanVolume := LoanVolumeScore(c, loans, clock);
    var currentYear := CurrentYearActivity(loans, clock);
    var utilization := CreditUtilizationScore(c, loans, clock.today);
    var overall := WeightedSum(w, pastLoans, loanVolume, currentYear, utilization);
    ScoreResult(ClampInt(Trunc(overall)), pastLoans, loanVolume, currentYear, utilization)
  }
}

/** Properties of the credit score calculator. */
module ScoringProperties {
  import opened Rounding
  import opened Aggregates
  import opened Models
  import opened Settings
  import opened Scoring

  /** A customer without loans gets the neutral 50, 0 and 30, and a
      utilization score that depends on the debt, limit and income only. */
  lemma NoLoans(c: Customer, clock: Clock, other: Clock)
    ensures PastLoansPerformance([], clock.today) == 50.0
    ensures LoanVolumeScore(c, [], clock) == 0.0
    ensures CurrentYearActivity([], clock) == 30.0
    ensures CreditUtilizationScore(c, [], clock.today) == CreditUtilizationScore(c, [], other.today)
    ensures c.approvedLimit > 0.0 && c.monthlyIncome > 0.0 ==> CreditUtilizationScore(c, [], clock.today) >= 30.0
  {
    if c.approvedLimit > 0.0 && c.monthlyIncome > 0.0 {
      assert MonthlyDebtPayment([], clock.today) == 0.0;
      assert IncomeLadder(0.0 / c.monthlyIncome) == 100.0;
    }
  }

  /** The completed-loans formula lies in [0, 84]: at most 60 from the good
      share, 4 from the excellence bonus and 20 from recent loans. */
  lemma CompletedLoansFormulaBounds(completed: seq<Loan>, today: int)
    requires |completed| > 0
    ensures 0.0 <= CompletedLoansFormula(completed, today) <= 84.0
  {
    var total := |completed|;
    ShareBounds(CountIf(completed, IsGood), total);
    ShareBounds(CountIf(completed, IsExcellent), total);
    var recent := Filter(completed, StartedOnOrAfter(today - RecentWindowDays));
    if |recent| > 0 {
      ShareBounds(CountIf(recent, IsGood), |recent|);
    }
  }

  /** Once some loan is completed, the past-loans score is the completed-loans
      formula itself (no clamping happens) and never exceeds 84. */
  lemma PastLoansWithCompletedLoans(loans: seq<Loan>, today: int, i: int)
    requires ValidLoans(loans)
    requires 0 <= i < |loans| && IsCompleted(loans[i], today)
    ensures |Filter(loans, CompletedBy(today))| > 0
    ensures PastLoansPerformance(loans, today)
         == CompletedLoansFormula(Filter(loans, CompletedBy(today)), today)
    ensures PastLoansPerformance(loans, today) <= 84.0
  {
    assert CompletedBy(today)(loans[i]);
    assert loans[i] in Filter(loans, CompletedBy(today));
    CompletedLoansFormulaBounds(Filter(loans, CompletedBy(today)), today);
  }

  /** A loan that is not completed has paid less than its full tenure, so its percentage is below 100. */
  lemma OngoingPercentBelowHundred(loans: seq<Loan>, today: int)
    requires ValidLoans(loans)
    requires forall i :: 0 <= i < |loans| ==> !IsCompleted(loans[i], today)
    ensures forall i :: 0 <= i < |loans| ==> 0.0 <= PaymentCompletionRate(loans[i]) < 100.0
  {
  }

  /** With loans but none completed, the score is the plain average payment
      percentage of the approved loans, or 50 if none is approved. */
  lemma PastLoansWithoutCompletedLoans(loans: seq<Loan>, today: int)
    requires ValidLoans(loans) && |loans| > 0
    requires forall i :: 0 <= i < |loans| ==> !IsCompleted(loans[i], today)
    ensures |ApprovedLoans(loans)| == 0 ==> PastLoansPerformance(loans, today) == 50.0
    ensures |ApprovedLoans(loans)| > 0 ==>
              PastLoansPerformance(loans, today) == AveragePaymentPercent(ApprovedLoans(loans))
  {
    var ongoing := ApprovedLoans(loans);
    OngoingPercentBelowHundred(loans, today);
    if |ongoing| > 0 {
      forall j | 0 <= j < |ongoing| ensures 0.0 <= PaymentCompletionRate(ongoing[j]) <= 100.0 {
        assert ongoing[j] in loans;
      }
      AverageBounds(ongoing, PaymentCompletionRate, 100.0);
    }
  }

  /** "Excellent" means exactly the tenure: a loan over-paid by one
      installment is good but earns no excellence bonus (84 against 80). */
  lemma ExcellenceNeedsExactTenure(today: int)
    ensures var exact := Loan(100000.0, 12, 12.0, 8884.88, 12, true, today - 400, today - 35);
            PastLoansPerformance([exact], today) == 84.0
    ensures var over := Loan(100000.0, 12, 12.0, 8884.88, 13, true, today - 400, today - 35);
            PastLoansPerformance([over], today) == 80.0
  {
    var exact := Loan(100000.0, 12, 12.0, 8884.88, 12, true, today - 400, today - 35);
    var over := Loan(100000.0, 12, 12.0, 8884.88, 13, true, today - 400, today - 35);
    assert Filter([exact], CompletedBy(today)) == [exact];
    assert Filter([exact], StartedOnOrAfter(today - RecentWindowDays)) == [exact];
    assert Filter([exact], IsGood) == [exact];
    assert Filter([exact], IsExcellent) == [exact];
    assert Filter([over], CompletedBy(today)) == [over];
    assert Filter([over], StartedOnOrAfter(today - RecentWindowDays)) == [over];
    assert Filter([over], IsGood) == [over];
    assert Filter([over], IsExcellent) == [];
  }

  /** With approved loans of non-negative amounts, the loan-volume score is
      the 50/30/20 blend of the count, amount and frequency factors, each
      capped at 100; the final clamp never changes it. */
  lemma LoanVolumeScoreIsBlend(c: Customer, loans: seq<Loan>, clock: Clock)
    requires |ApprovedLoans(loans)| > 0
    requires forall i :: 0 <= i < |loans| ==> loans[i].loanAmount >= 0.0
    ensures var n := |ApprovedLoans(loans)| as real;
            var amountScore :=
              if c.approvedLimit > 0.0 then Min(100.0, ApprovedAmount(loans) / c.approvedLimit * 50.0) else 0.0;
            var frequencyScore :=
              if clock.accountAgeYears > 0.0 then Min(100.0, n / clock.accountAgeYears * 25.0) else 0.0;
            0.0 <= amountScore <= 100.0 && 0.0 <= frequencyScore <= 100.0
            && LoanVolumeScore(c, loans, clock)
               == Min(100.0, n * 10.0) * 0.5 + amountScore * 0.3 + frequencyScore * 0.2
  {
    ApprovedAmountBounds(loans);
    var n := |ApprovedLoans(loans)| as real;
    var amountScore :=
      if c.approvedLimit > 0.0 then Min(100.0, ApprovedAmount(loans) / c.approvedLimit * 50.0) else 0.0;
    var frequencyScore :=
      if clock.accountAgeYears > 0.0 then Min(100.0, n / clock.accountAgeYears * 25.0) else 0.0;
    NonNegativeQuotient(ApprovedAmount(loans), c.approvedLimit);
    NonNegativeQuotient(n, clock.accountAgeYears);
    var blend := Min(100.0, n * 10.0) * 0.5 + amountScore * 0.3 + frequencyScore * 0.2;
    assert 0.0 <= blend <= 100.0;
  }

  /** A non-negative number over a positive one is non-negative. */
  lemma NonNegativeQuotient(a: real, b: real)
    ensures a >= 0.0 && b > 0.0 ==> a / b >= 0.0
  {
  }

  /** With some loan this year, the current-year score is the 40/30/30 blend
      of the count factor, the approval rate and the capped average payment
      percentage; the final clamp never changes it. */
  lemma CurrentYearActivityIsBlend(loans: seq<Loan>, clock: Clock, thisYear: seq<Loan>, approved: seq<Loan>)
    requires ValidLoans(loans)
    requires thisYear == Filter(loans, StartedOnOrAfter(clock.yearStart)) && |thisYear| > 0
    requires approved == ApprovedLoans(thisYear)
    ensures ValidLoans(approved)
    ensures CurrentYearActivity(loans, clock)
         == Min(100.0, |thisYear| as real * 25.0) * 0.4
          + (|approved| as real / |thisYear| as real * 100.0) * 0.3
          + (if |approved| > 0 then Min(100.0, AveragePaymentPercent(approved)) else 0.0) * 0.3
  {
    CurrentYearComponentBounds(thisYear);
  }

  /** The approval rate and the capped average payment percentage of a
      non-empty set of loans both lie in [0, 100]. */
  lemma CurrentYearComponentBounds(thisYear: seq<Loan>)
    requires ValidLoans(thisYear) && |thisYear| > 0
    ensures var approved := ApprovedLoans(thisYear);
            && 0.0 <= |approved| as real / |thisYear| as real * 100.0 <= 100.0
            && (|approved| > 0 ==> 0.0 <= Min(100.0, AveragePaymentPercent(approved)) <= 100.0)
  {
    var approved := ApprovedLoans(thisYear);
    assert |approved| <= |thisYear|;
    ShareBounds(|approved|, |thisYear|);
  }

  /** A larger debt-to-limit ratio never earns more ladder points. */
  lemma UtilizationLadderMonotone(x: real, y: real)
    requires x <= y
    ensures UtilizationLadder(y) <= UtilizationLadder(x)
  {
  }

  /** A larger debt-to-income ratio never earns more ladder points. */
  lemma IncomeLadderMonotone(x: real, y: real)
    requires x <= y
    ensures IncomeLadder(y) <= IncomeLadder(x)
  {
  }

  lemma ClampScoreMonotone(x: real, y: real)
    requires x <= y
    ensures ClampScore(x) <= ClampScore(y)
  {
  }

  lemma DivideMonotone(a: real, b: real, d: real)
    requires a <= b && d > 0.0
    ensures a / d <= b / d
  {
    assert (a / d) * d == a && (b / d) * d == b;
  }

  /** More debt, with the limit, income and loans unchanged, never raises the utilization score. */
  lemma CreditUtilizationMonotoneInDebt(c: Customer, loans: seq<Loan>, today: int, moreDebt: real)
    requires c.currentDebt <= moreDebt
    ensures CreditUtilizationScore(c.(currentDebt := moreDebt), loans, today)
         <= CreditUtilizationScore(c, loans, today)
  {
    var c' := c.(currentDebt := moreDebt);
    if c.approvedLimit > 0.0 {
      var l := c.approvedLimit;
      DivideMonotone(c.currentDebt, moreDebt, l);
      UtilizationLadderMonotone(c.currentDebt / l, moreDebt / l);
      var u := UtilizationLadder(c.currentDebt / l);
      var u' := UtilizationLadder(moreDebt / l);
      var a := l - c.currentDebt;
      var a' := l - moreDebt;
      var avail := if a > 0.0 then Min(100.0, a / l * 100.0) else 0.0;
      var avail' := if a' > 0.0 then Min(100.0, a' / l * 100.0) else 0.0;
      if a' > 0.0 {
        DivideMonotone(a', a, l);
      }
      assert avail' <= avail;
      var i := if c.monthlyIncome > 0.0 then IncomeLadder(MonthlyDebtPayment(loans, today) / c.monthlyIncome) else 0.0;
      ClampScoreMonotone(u' * 0.5 + i * 0.3 + avail' * 0.2, u * 0.5 + i * 0.3 + avail * 0.2);
    }
  }

  /** With convex weights the clamp never bites: for sub-scores in [0, 100]
      the clamped truncation is the weighted sum rounded down. */
  lemma ConvexWeightsNeedNoClamp(w: Weights, p: real, v: real, cy: real, u: real)
    requires Convex(w)
    requires 0.0 <= p <= 100.0 && 0.0 <= v <= 100.0 && 0.0 <= cy <= 100.0 && 0.0 <= u <= 100.0
    ensures var s := WeightedSum(w, p, v, cy, u);
            ClampInt(Trunc(s)) as real <= s < ClampInt(Trunc(s)) as real + 1.0
  {
    WeightedSumBounds(w, p, v, cy, u);
  }

  /** Under the default weights a customer without loans scores between 26 and 41. */
  lemma NewCustomerDefaultScore(c: Customer, clock: Clock)
    ensures 26 <= CalculateCreditScore(c, [], clock, DefaultWeights).overallScore <= 41
  {
    NoLoans(c, clock, clock);
    DefaultWeightsConvex();
    var r := CalculateCreditScore(c, [], clock, DefaultWeights);
    ConvexWeightsNeedNoClamp(DefaultWeights, r.pastLoansScore, r.loanVolumeScore, r.currentYearScore, r.creditUtilizationScore);
    var u := CreditUtilizationScore(c, [], clock.today);
    assert WeightedSum(DefaultWeights, 50.0, 0.0, 30.0, u) == 26.0 + u * 0.15;
  }

  /** An active loan (`Loan.is_active`) is running and not completed, so it
      counts towards the debt-to-income ratio and not towards past performance. */
  lemma ActiveLoanRunningNotCompleted(l: Loan, today: int)
    requires IsActive(l, today)
    ensures IsRunning(l, today)
    ensures !IsCompleted(l, today)
  {
  }

  /** The converse fails: a fully repaid loan inside its dates is not active,
      yet its installment still counts as monthly debt. */
  lemma RunningLoanNeedNotBeActive(today: int)
    ensures var paid := Loan(100000.0, 12, 12.0, 8884.88, 12, true, today - 30, today + 335);
            IsRunning(paid, today) && !IsActive(paid, today)
            && MonthlyDebtPayment([paid], today) == 8884.88
  {
    var paid := Loan(100000.0, 12, 12.0, 8884.88, 12, true, today - 30, today + 335);
    assert Filter([paid], RunningOn(today)) == [paid];
    assert [paid][1..] == [];
    assert Sum([paid], MonthlyRepayment) == MonthlyRepayment(paid) + Sum([], MonthlyRepayment);
  }

  /** One more loan adds its installment to the monthly debt exactly when it
      is running today. */
  lemma MonthlyDebtPaymentSnoc(loans: seq<Loan>, l: Loan, today: int)
    ensures MonthlyDebtPayment(loans + [l], today)
         == MonthlyDebtPayment(loans, today) + (if IsRunning(l, today) then l.monthlyRepayment else 0.0)
  {
    FilterAppend(loans, [l], RunningOn(today));
    SumAppend(Filter(loans, RunningOn(today)), Filter([l], RunningOn(today)), MonthlyRepayment);
    assert Filter([l], RunningOn(today)) == (if IsRunning(l, today) then [l] else []);
  }

  /** A running loan's installment, and 0 for every other loan. */
  function RunningRepayment(today: int): Loan -> real
  {
    (l: Loan) => if IsRunning(l, today) then l.monthlyRepayment else 0.0
  }

  /** The monthly debt is the sum over all loans of each running loan's
      installment: the filter drops exactly the loans that contribute 0. */
  lemma {:induction false} MonthlyDebtPaymentIsSumOfRunning(loans: seq<Loan>, today: int)
    ensures MonthlyDebtPayment(loans, today) == Sum(loans, RunningRepayment(today))
  {
    if |loans| > 0 {
      var k := |loans| - 1;
      MonthlyDebtPaymentIsSumOfRunning(loans[..k], today);
      assert loans == loans[..k] + [loans[k]];
      MonthlyDebtPaymentSnoc(loans[..k], loans[k], today);
      SumAppend(loans[..k], [loans[k]], RunningRepayment(today));
      assert [loans[k]][1..] == [];
    }
  }

  /** "Good" is the model's payment completion rate reaching 80%, and
      "excellent" is it reaching exactly 100%. */
  lemma GoodAndExcellentAsCompletionRate(l: Loan)
    requires l.tenure >= 1
    ensures IsGood(l) <==> PaymentCompletionRate(l) >= 80.0
    ensures IsExcellent(l) <==> PaymentCompletionRate(l) == 100.0
  {
  }
}

=== FILE: serializers.dfy ===
/** The request checks that stand in front of the engine: customer
    registration (approved limit, age, phone number, income), the
    eligibility request's field bounds and the loan-creation validators. */
module Serializers {
  import opened Wrappers
  import opened Rounding
  import opened Settings
  import opened Amortisation

  /** One lakh, the unit the approved limit is rounded to. */
  const Lakh: int := 100000

  /** `CustomerRegistrationSerializer.create`: `income * 36`, rounded to the
      nearest lakh with Decimal's `round()`, ties to even. */
  function ApprovedLimit(monthlyIncome: real): (limit: int)
    ensures limit % Lakh == 0
    ensures -50000.0 <= limit as real - ApprovedLimitMultiplier as real * monthlyIncome <= 50000.0
    ensures IsHalfEvenRounding(monthlyIncome * ApprovedLimitMultiplier as real / Lakh as real, limit / Lakh)
  {
    var k := RoundHalfEven(monthlyIncome * ApprovedLimitMultiplier as real / Lakh as real);
    k * Lakh
  }

  /** Rounding to the nearest integer never reverses the order of two numbers. */
  lemma RoundHalfEvenMonotone(x: real, y: real)
    requires x <= y
    ensures RoundHalfEven(x) <= RoundHalfEven(y)
  {
  }

  /** A higher income never gets a lower approved limit. */
  lemma ApprovedLimitMonotone(income1: real, income2: real)
    requires income1 <= income2
    ensures ApprovedLimit(income1) <= ApprovedLimit(income2)
  {
    RoundHalfEvenMonotone(income1 * 36.0 / 100000.0, income2 * 36.0 / 100000.0);
  }

  /** 50000 a month gives 18 lakh; 12500 (4.5 lakh) rounds down to the even
      4 lakh and 37500 (13.5 lakh) up to the even 14 lakh. */
  lemma ApprovedLimitExamples()
    ensures ApprovedLimit(50000.0) == 1800000
    ensures ApprovedLimit(12500.0) == 400000
    ensures ApprovedLimit(37500.0) == 1400000
  {
    assert 50000.0 * 36.0 / 100000.0 == 18.0;
    assert 12500.0 * 36.0 / 100000.0 == 4.5;
    assert 37500.0 * 36.0 / 100000.0 == 13.5;
  }

  /** `validate_age`: at least 18. */
  function ValidateAge(age: int): (r: Result<int>)
    ensures r.Ok? <==> age >= 18
    ensures r.Ok? ==> r.value == age
    ensures r.Err? ==> r.message == "Customer must be at least 18 years old."
  {
    if age < 18 then Err("Customer must be at least 18 years old.") else Ok(age)
  }

  /** The decimal digits of a non-negative integer, most significant first. */
  function NatToString(n: nat): (s: string)
    ensures |s| >= 1
    ensures forall i :: 0 <= i < |s| ==> '0' <= s[i] <= '9'
  {
    var d := [(n % 10) as char + '0'];
    if n < 10 then d else NatToString(n / 10) + d
  }

  /** Python's `str()` of an integer: a minus sign, then the digits of its magnitude. */
  function IntToString(n: int): (s: string)
    ensures n >= 0 ==> s == NatToString(n)
    ensures n < 0 ==> s == "-" + NatToString(-n)
  {
    if n < 0 then "-" + NatToString(-n) else NatToString(n)
  }

  /** The value of a string of decimal digits. */
  function DigitsValue(s: string): nat
  {
    if |s| == 0 then 0
    else
      var c := s[|s| - 1];
      DigitsValue(s[..|s| - 1]) * 10 + (if '0' <= c <= '9' then (c - '0') as int else 0)
  }

  /** Reading the digits back gives the number they were written from. */
  lemma {:induction false} NatToStringRoundTrip(n: nat)
    ensures DigitsValue(NatToString(n)) == n
  {
    var s := NatToString(n);
    if n >= 10 {
      NatToStringRoundTrip(n / 10);
      assert s[..|s| - 1] == NatToString(n / 10);
    }
  }

  function Pow10(k: nat): (p: nat)
    ensures p >= 1
  {
    if k == 0 then 1 else 10 * Pow10(k - 1)
  }

  lemma {:induction false} Pow10Monotone(j: nat, k: nat)
    requires j <= k
    ensures Pow10(j) <= Pow10(k)
  {
    if j < k {
      Pow10Monotone(j, k - 1);
    }
  }

  /** A number written with `k` digits lies in `[10^(k-1), 10^k)`, except 0, which is written "0". */
  lemma {:induction false} NatToStringLength(n: nat)
    ensures n < Pow10(|NatToString(n)|)
    ensures n >= 1 ==> Pow10(|NatToString(n)| - 1) <= n
  {
    if n >= 10 {
      NatToStringLength(n / 10);
    }
  }

  /** A non-negative number takes exactly `k >= 1` digits iff it lies in `[10^(k-1), 10^k)`. */
  lemma DigitCount(n: nat, k: nat)
    requires k >= 2
    ensures |NatToString(n)| == k <==> Pow10(k - 1) <= n < Pow10(k)
  {
    var d := |NatToString(n)|;
    NatToStringLength(n);
    if Pow10(k - 1) <= n < Pow10(k) {
      if d < k {
        Pow10Monotone(d, k - 1);
      } else if d > k {
        Pow10Monotone(k, d - 1);
      }
    }
  }

  /** `validate_phone_number`, the length rule: the decimal string of the
      number, sign included, has exactly ten characters. */
  function ValidatePhoneNumber(phone: int): (r: Result<int>)
    ensures r.Ok? <==> |IntToString(phone)| == 10
    ensures r.Ok? ==> r.value == phone
    ensures r.Err? ==> r.message == "Phone number must be exactly 10 digits."
  {
    if |IntToString(phone)| != 10 then Err("Phone number must be exactly 10 digits.") else Ok(phone)
  }

  /** The phone numbers the length rule admits: ten-digit non-negative
      numbers, and also negative numbers of nine digits, since the minus
      sign is counted. */
  lemma PhoneNumberRange(phone: int)
    ensures ValidatePhoneNumber(phone).Ok? <==>
              (1000000000 <= phone <= 9999999999 || -999999999 <= phone <= -100000000)
  {
    if phone >= 0 {
      DigitCount(phone, 10);
    } else {
      DigitCount(-phone, 9);
      assert Pow10(8) == 100000000 && Pow10(9) == 1000000000;
      assert |IntToString(phone)| == 1 + |NatToString(-phone)|;
    }
  }

  /** `validate_monthly_income`: strictly positive. */
  function ValidateMonthlyIncome(income: real): (r: Result<real>)
    ensures r.Ok? <==> income > 0.0
    ensures r.Ok? ==> r.value == income
    ensures r.Err? ==> r.message == "Monthly income must be positive."
  {
    if income <= 0.0 then Err("Monthly income must be positive.") else Ok(income)
  }

  /** `LoanCreationRequestSerializer.validate_loan_amount`: strictly positive. */
  function ValidateLoanAmount(amount: real): (r: Result<real>)
    ensures r.Ok? <==> amount > 0.0
    ensures r.Ok? ==> r.value == amount
    ensures r.Err? ==> r.message == "Loan amount must be positive."
  {
    if amount <= 0.0 then Err("Loan amount must be positive.") else Ok(amount)
  }

  /** `validate_interest_rate`: in the half-open range (0, 50]. */
  function ValidateInterestRate(rate: real): (r: Result<real>)
    ensures r.Ok? <==> 0.0 < rate <= 50.0
    ensures r.Ok? ==> r.value == rate
    ensures r.Err? ==> r.message == "Interest rate must be between 0.01% and 50%."
  {
    if rate <= 0.0 || rate > 50.0 then Err("Interest rate must be between 0.01% and 50%.") else Ok(rate)
  }

  /** `validate_tenure`: 1 to 120 months. */
  function ValidateTenure(tenure: int): (r: Result<int>)
    ensures r.Ok? <==> 1 <= tenure <= 120
    ensures r.Ok? ==> r.value == tenure
    ensures r.Err? ==> r.message == "Tenure must be between 1 and 120 months."
  {
    if tenure < 1 || tenure > 120 then Err("Tenure must be between 1 and 120 months.") else Ok(tenure)
  }

  /** The field bounds of `LoanEligibilityRequestSerializer`. */
  predicate EligibilityRequestValid(customerId: int, loanAmount: real, interestRate: real, tenure: int)
  {
    && customerId >= 1
    && loanAmount >= 1000.0
    && 0.01 <= interestRate <= 50.0
    && 1 <= tenure <= 120
  }

  /** A valid eligibility request also passes every loan-creation check,
      meets the evaluator's preconditions, and has a positive installment. */
  lemma EligibilityRequestSuffices(customerId: int, loanAmount: real, interestRate: real, tenure: int)
    requires EligibilityRequestValid(customerId, loanAmount, interestRate, tenure)
    ensures ValidateLoanAmount(loanAmount).Ok?
    ensures ValidateInterestRate(interestRate).Ok?
    ensures ValidateTenure(tenure).Ok?
    ensures EmiDefined(interestRate, tenure)
    ensures CalculateEmi(loanAmount, interestRate, tenure) > 0.0
  {
    var t := tenure as real;
    assert loanAmount / t >= 1000.0 / 120.0 by {
      assert (loanAmount / t) * t == loanAmount;
      assert (loanAmount / t) * 120.0 >= (loanAmount / t) * t;
    }
    CalculateEmiPositive(loanAmount, interestRate, tenure);
  }
}

=== FILE: settings.dfy ===
/** The scoring and approval configuration: the four score weights, the
    ordered tier table, the affordability ratio and the limit multiplier,
    with their default values. */
module Settings {
  import opened Wrappers

  /** `CREDIT_SCORE_WEIGHTS`, one field per sub-score. */
  datatype Weights = Weights(
    pastLoans: real,
    loanVolume: real,
    currentYear: real,
    utilization: real)

  /** One entry of `LOAN_APPROVAL_RULES`: an inclusive score range and an
      optional minimum rate (None: keep the requested rate). */
  datatype Tier = Tier(name: string, minScore: int, maxScore: int, interestRate: Option<real>)

  const DefaultWeights: Weights := Weights(0.40, 0.25, 0.20, 0.15)

  /** The default tiers, in their configured order. The POOR tier carries
      no rate, so a score in 0..9 is approved at the requested rate. */
  const DefaultTiers: seq<Tier> := [
    Tier("EXCELLENT", 50, 100, None),
    Tier("GOOD", 30, 49, Some(12.0)),
    Tier("FAIR", 10, 29, Some(16.0)),
    Tier("POOR", 0, 9, None)
  ]

  /** `MAX_EMI_TO_SALARY_RATIO`. */
  const MaxEmiToSalaryRatio: real := 0.50

  /** `APPROVED_LIMIT_MULTIPLIER`. */
  const ApprovedLimitMultiplier: int := 36

  /** Non-negative weights summing to one. */
  predicate Convex(w: Weights)
  {
    && w.pastLoans >= 0.0 && w.loanVolume >= 0.0
    && w.currentYear >= 0.0 && w.utilization >= 0.0
    && w.pastLoans + w.loanVolume + w.currentYear + w.utilization == 1.0
  }

  /** The weighted sum of the four sub-scores. */
  function WeightedSum(w: Weights, pastLoans: real, loanVolume: real, currentYear: real, utilization: real): real
  {
    pastLoans * w.pastLoans + loanVolume * w.loanVolume
      + currentYear * w.currentYear + utilization * w.utilization
  }

  /** `rule['min_score'] <= score <= rule['max_score']`. */
  predicate InTier(t: Tier, score: int)
  {
    t.minScore <= score <= t.maxScore
  }

  /** No score falls into two different tiers. */
  ghost predicate Disjoint(tiers: seq<Tier>)
  {
    forall i, j, s :: 0 <= i < j < |tiers| && InTier(tiers[i], s) ==> !InTier(tiers[j], s)
  }

  /** Some tier contains the score. */
  ghost predicate Covered(tiers: seq<Tier>, score: int)
  {
    exists i :: 0 <= i < |tiers| && InTier(tiers[i], score)
  }

  /** Every score in 0..100 falls into some tier. */
  ghost predicate Covers(tiers: seq<Tier>)
  {
    forall s :: 0 <= s <= 100 ==> Covered(tiers, s)
  }

  /** A convex combination of scores in [0, 100] is itself in [0, 100]. */
  lemma WeightedSumBounds(w: Weights, p: real, v: real, c: real, u: real)
    requires Convex(w)
    requires 0.0 <= p <= 100.0 && 0.0 <= v <= 100.0 && 0.0 <= c <= 100.0 && 0.0 <= u <= 100.0
    ensures 0.0 <= WeightedSum(w, p, v, c, u) <= 100.0
  {
    var a := ScaledScore(p, w.pastLoans);
    var b := ScaledScore(v, w.loanVolume);
    var d := ScaledScore(c, w.currentYear);
    var e := ScaledScore(u, w.utilization);
    SumOfScaled(a, b, d, e, w);
  }

  lemma SumOfScaled(a: real, b: real, d: real, e: real, w: Weights)
    requires Convex(w)
    requires 0.0 <= a <= 100.0 * w.pastLoans && 0.0 <= b <= 100.0 * w.loanVolume
    requires 0.0 <= d <= 100.0 * w.currentYear && 0.0 <= e <= 100.0 * w.utilization
    ensures 0.0 <= a + b + d + e <= 100.0
  {
  }

  lemma ScaledScore(x: real, k: real) returns (y: real)
    requires 0.0 <= x <= 100.0 && k >= 0.0
    ensures y == x * k
    ensures 0.0 <= y <= 100.0 * k
  {
    y := x * k;
    if k > 0.0 {
      assert x * k <= 100.0 * k;
    }
  }

  /** The defaults 0.40/0.25/0.20/0.15 are non-negative and sum to one. */
  lemma DefaultWeightsConvex()
    ensures Convex(DefaultWeights)
  {
  }

  /** The default tier ranges are pairwise disjoint and cover 0..100. */
  lemma DefaultTiersPartition()
    ensures Disjoint(DefaultTiers)
    ensures Covers(DefaultTiers)
  {
    forall s | 0 <= s <= 100
      ensures Covered(DefaultTiers, s)
    {
      if s >= 50 { assert InTier(DefaultTiers[0], s); }
      else if s >= 30 { assert InTier(DefaultTiers[1], s); }
      else if s >= 10 { assert InTier(DefaultTiers[2], s); }
      else { assert InTier(DefaultTiers[3], s); }
    }
  }
}

=== FILE: wrappers.dfy ===
/** Failure-compatible result types shared by the validators and the tier lookup. */
module Wrappers {

  /** A value that may be absent, as Python's None. */
  datatype Option<+T> = None | Some(value: T)

  /** The outcome of a field validator: the accepted value, or the
      message of the ValidationError it raises. */
  datatype Result<+T> = Ok(value: T) | Err(message: string)
}
